=== FILE: README.md ===
# Story-sharing API: accounts, sessions and the story feed

A Dafny model of the request handlers of the story-sharing backend
(`index.js`): bearer-token authentication, federated find-or-create
provisioning, password registration and login, story ingestion, the
paginated story feed with its username repair, and the two story look-ups.
Every handler is a pure function from a configuration object (`Api.Env`:
JWT secret, the clock in milliseconds (JSON Web Tokens read it in whole seconds), the id the document store generates for the next `add`,
and the foreign collaborators), the current store
(`Store.Store`: the `users` and `stories` collections plus stored photo
objects) and the request, to a reply (`Api.Reply`: status, body and the
store left behind). Read-only handlers return only a response.

Files:

- `options.dfy`: `Option`, a value that may be `undefined`/`null`.
- `text.dfy`: JavaScript truthiness and `split` with one separator character (fields 0 and 1).
- `session.dfy`: signing and verifying session tokens, and `authenticateToken`.
- `store.dfy`: documents and records, the store's document-id order and `add`, `where(...)` and `doc(id)` look-ups, the store invariant, and story filters.
- `api.dfy`: the configuration and collaborators, response bodies and messages.
- `accounts.dfy`: `POST /verify-google-token`, `POST /register`, `POST /login`.
- `stories.dfy`: `POST /stories`, `GET /stories/:storyID`, `GET /stories/user/:userID`.
- `feed.dfy`: `GET /stories` and the properties of its pages.
- `flows.dfy`: properties spanning several requests.

Behaviour the model takes from the code, where a reader of the handlers
might expect otherwise:

- Uniqueness violations at registration answer 400, not a separate conflict status.
- A verified federated token without an e-mail, or without a name, answers 500 when no user is linked to its uid yet (the e-mail split throws, the document store refuses an `undefined` name), not 400. When a linked user exists, the token is issued from the stored record and the missing claims do not matter.
- An empty `Authorization` header answers 403, not 401: `"" && ...` yields the empty string, which is not `null`, so it is handed to verification. An empty token (an empty header, or `Bearer ` with nothing after the space) is refused with 403 before any parsing: `jwt.verify` rejects an empty token outright.
- Feed repair also applies when the stored username is missing or empty, not only when it is `'Unknown'`.
- Logging in as a user that has no stored password hash (a federated-only user) answers 500, because `bcrypt.compare` rejects a missing hash.
- `GET /stories/user/:userID` answers 500 when one of the author's stories has no creation date, since it formats the date without a guard.
- Every collection is kept in ascending document-id order, the order in which the document store answers a query without `orderBy`. So a query's first document (`docs[0]`) is the matching document with the smallest id. `GET /stories/user` lists in id order. The unfiltered feed puts stories of equal date in descending id order, because the implicit order by document name follows the direction of the last `orderBy`.
- `add` stores the new document under the id the store generates, which the model takes as the input `Env.newId`. An `add` under an id that is already taken fails: the handler answers 500 and nothing is written. For `POST /stories`, the photo uploaded before the failure stays stored.
- `doc(path)` reads the path as segments separated by `/` and drops empty segments. It throws for an empty path, for a path holding `//`, and for an even number of non-empty segments (a collection, not a document). So `GET /stories/:storyID` answers 500, not 404, for such an id; `abc/` names the story `abc`; and a path of three or more segments names a document in a sub-collection, which no handler writes, so it answers 404. The same rule decides whether `POST /stories` and the feed's username repair can look up `userID`.

## Model

| member | source | states |
|---|---|---|
| Text.Split | index.js:72 | `split(sep)` yields at least one field, no field contains the separator, and joining the fields with the separator gives back the input |
| Text.SplitJoin | index.js:40 | round trip: separator-free fields joined and split again are the same fields |
| Text.FirstField | index.js:72 | `split(sep)[0]` is the prefix of the input before the first separator, the whole input when there is none |
| Text.SecondField | index.js:40 | `split(sep)[1]` is absent exactly when there is no separator; otherwise it is the first field of what follows the first separator |
| Session.Sign | index.js:83 | a token signed at time `now` with lifetime `ttl` verifies to exactly its claims at every time before `now + ttl`, never after, and never under another key |
| Session.BearerToken | index.js:39-40 | the token is missing exactly when the header is missing or is non-empty without a space; an empty header yields an empty token; otherwise it is the field after the first space |
| Session.BearerTokenOfWellFormedHeader | index.js:40 | `<scheme> <token>` yields `<token>` when neither part holds a space |
| Session.Authenticate | index.js:38-48 | 401 exactly when no token is extracted; an empty token is refused with 403 before parsing; the acting user is the claims of a parsed token signed with the secret and not expired; otherwise 403 |
| Session.SignedTokenAuthenticates | index.js:44-47 | a signed token sent as `Bearer <token>` authenticates as its own claims before its expiry and is refused with 403 from then on |
| Store.FirstWhere | index.js:64 | the first document matching `where(field, '==', value)`: absent exactly when none matches, otherwise a matching document with no match before it |
| Store.FirstWhereAfterAdd | index.js:64-78 | adding a document under an unused id to a collection in id order changes a query's first match only when the new document matches and its id sorts before the old first match's; then the new document becomes the first match, otherwise the old one stays first |
| Store.FirstWhereAddNew | index.js:64-69 | adding a document to a collection with no match makes it the first match exactly when it matches; otherwise the query stays empty |
| Store.Add | index.js:238-247 | `add` yields one more document than before, with the new document at its position in id order |
| Store.Resolve | index.js:324 | `doc(path)` is refused exactly when the path is empty, holds `//` or has an even number of non-empty segments; one segment names a document of the collection, by a valid id |
| Store.ResolveId | index.js:324 | a valid id names the document with that id |
| Store.ResolveTrailingSlash | index.js:324 | an id followed by `/` names the same document as the id |
| Store.ResolveThreeSegments | index.js:324 | three valid segments joined by `/` name a document of a sub-collection |
| Store.Lookup | index.js:235 | `doc(id).get()` is absent exactly when no document has that id, otherwise returns that document's fields |
| Store.AddAt | index.js:238-247 | `add` puts the new document at its position in id order; the documents ahead of it keep their positions, and those after it move back by one in the same order |
| Store.AddKeepsIdOrder | index.js:238 | an add under an id no document carries keeps the collection in id order |
| Store.LookupAdded | index.js:324-328 | after an add under an unused id, `doc(id).get()` returns the new document's fields |
| Store.IdOrderedIdsDistinct | index.js:324 | a collection in id order never carries the same id twice, so `doc(id)` names at most one document |
| Store.InsertPosSplits | index.js:69 | an unused id sorts after every document ahead of its insertion position and before every document from that position on |
| Store.IdBeforeTotal | index.js:64 | the id order ranks any two distinct ids one way or the other |
| Store.IdBeforeTransitive | index.js:64 | the id order is transitive |
| Store.IdBeforeIrreflexive | index.js:64 | no id sorts before itself |
| StoryQueries.Where | index.js:275 | a `where` clause keeps only stories that satisfy it, and never more stories than there are (that it keeps every such story, in order, is `WhereMembers`, `WhereCounts` and `WhereConcat`) |
| StoryQueries.WhereConcat | index.js:340 | a `where` clause over two runs of documents gives the clause's results over the first run, followed by those over the second |
| StoryQueries.WhereMembers | index.js:275 | a story is in the result of a `where` clause exactly when it is stored and satisfies the clause |
| StoryQueries.WhereCounts | index.js:275 | a `where` clause keeps each story that satisfies it as often as it is stored and drops every other |
| StoryQueries.WhereKeepsIdOrder | index.js:340 | the result of a `where` clause over a collection in id order is in id order |
| Accounts.DefaultUsername | index.js:72 | the username is the part of the e-mail before its first `@`, or the whole e-mail when it holds none |
| Accounts.VerifyGoogleToken | index.js:52-94 | 400 exactly when there is no idToken; a failed ID-token verification gives 500 with no write; every failure writes nothing; a found uid writes nothing; 200 exactly when the uid is linked already, or when the claims carry an e-mail and a name and the generated id is unused; an unknown uid then adds exactly one user linked to it at its place in id order, with the e-mail's local part as username; a found uid's token carries the first linked record's e-mail and its stored userID, or its document id when it has none; the 24-hour token names the linked user; the store invariant is kept |
| Accounts.Provision | index.js:67-75 | the creation path adds exactly one user under the generated id, with the claims' e-mail and name, the e-mail's local part as username and the uid, keeps the other users in order, and issues a 24-hour token naming the new document |
| Accounts.Register | index.js:97-145 | missing field, then taken e-mail, then taken username give 400 with no write; a taken generated id gives 500 with no write; otherwise exactly one user is added under the generated id at its place in id order, with the given fields and the password's hash; 201 links the identity-provider uid and the document id, a provider failure leaves the unlinked user and gives 500 |
| Accounts.Enroll | index.js:117-140 | once every check passed, exactly one user is added under the generated id with the request's fields and the password's hash; a provider success links the uid and the id in place and answers 201, a failure leaves the unlinked user and answers 500; the store invariant is kept |
| Accounts.Login | index.js:149-202 | never writes; missing fields give 400; an unknown e-mail and a wrong password give the identical 400; success returns the stored username, name and userID and a 1-hour token with claims `{email, stored userID}` |
| Stories.CreateStory | index.js:205-260 | failed authentication answers 401/403 and a missing title, description or photo answers 400, both before any upload or write; an authenticated, complete request answers 201 or the generic 500; 201 exactly when the upload succeeds, the acting user's `userID` is a path `doc` accepts naming an existing user document with a username, and the generated id is unused; then exactly one story is added at its place in id order, with the form's fields, the photo URL, each coordinate stored as `parseFloat` of its field exactly when that field is truthy and as `null` otherwise, independently of the other, the clock in milliseconds, the acting user's id and that user's stored username, and the reply names the generated id |
| Stories.GetStory | index.js:321-334 | 500 exactly when `doc` refuses the path; 404 exactly when it names a sub-collection document or no story has the id it names; otherwise 200 with that story's stored fields |
| Stories.GetStoryTrailingSlash | index.js:324 | a story id followed by `/` gets the same answer as the id |
| Stories.GetStoryNested | index.js:324 | a three-segment path gets 404 |
| Stories.UserEntries | index.js:342-352 | one entry per story in order, username as stored, absent exactly when some story has no date |
| Stories.AuthorStoriesDated | index.js:340-350 | every story of the author carries a date exactly when every story in the query result does |
| Stories.UserListingOfAddedStory | index.js:340-352 | adding a dated story of the author inserts exactly that story's entry into a successful author listing, after the entries of the author's stories whose ids sort before it; every other entry is kept, in order |
| Stories.UserEntriesConcat | index.js:342-352 | the listing of two runs of stories is the listing of the first followed by that of the second |
| Stories.EntriesOfInsertion | index.js:342-352 | inserting a dated story into a listable run inserts its entry at the same place and keeps the other entries |
| Stories.GetUserStories | index.js:337-362 | 200 exactly when every story of the author has a date, listing each of the author's stories in order as its entry (id, title, stored username with no repair, description, photo URL and date); 500 otherwise |
| Feed.InsertByDate | index.js:279 | inserting adds exactly one occurrence of the story |
| Feed.InsertKeepsNewestFirst | index.js:279 | inserting into a newest-first list keeps it newest-first |
| Feed.InsertKeepsFeedOrder | index.js:279 | inserting a story whose id sorts before every other keeps the store's full order: newest first, equal dates by descending id |
| Feed.SortFollowsStoreOrder | index.js:279 | sorting a collection kept in id order yields the store's full order for `orderBy('storyDateCreated', 'desc')`, ties included |
| Feed.SortNewestFirst | index.js:279 | `orderBy('storyDateCreated', 'desc')` is a permutation that is newest-first, missing dates last |
| Feed.PageOf | index.js:280-281 | a negative offset or limit is refused; otherwise the page has `min(size, remaining)` entries, the ones starting at offset `(page-1)*size` in order |
| Feed.FeedPage | index.js:267-282 | the feed query with defaults `page = 1` and `size = 10` is refused exactly when its offset or limit is negative, holds at most `size` stories, and with no parameters holds `min(10, n)` of the `n` filtered stories (which ones is `FeedProperties.FeedPageIsOffsetRun`) |
| Feed.AuthorOf | index.js:289 | the repair's look-up finds a user only when `doc` accepts the story's `userID` as a one-segment path, and then it is the stored user with that id |
| Feed.RepairedUsername | index.js:287-294 | a truthy stored name other than `'Unknown'` is kept; otherwise the author's truthy username, else `'Unknown'`; never empty |
| Feed.RenderEntry | index.js:286-303 | an entry copies the story's fields, repairs the username only when needed, shows "Date not available" exactly when the date is missing, and fails exactly when a needed repair meets a `userID` that `doc` refuses |
| Feed.RenderFeed | index.js:284-304 | the rendered list has one entry per document in order, and exists exactly when no entry fails |
| Feed.ListStories | index.js:266-315 | 200 exactly when the page bounds are accepted and no repair fails, listing one rendered entry per story of the page, in order, at most `size`; otherwise 500; never writes |
| FeedProperties.PageIsRunOf | index.js:278-282 | a page holds at most `size` stories of the ordered list and is newest-first when the list is |
| FeedProperties.FeedPageIsFilteredSortedSlice | index.js:272-282 | a feed page is newest-first, has at most `size` stored stories, and with `location=1` only stories with a latitude |
| FeedProperties.FeedPageIsOffsetRun | index.js:272-282 | a feed page is the run of the filtered stories, sorted newest first, that starts at offset `(page-1)*size`: `min(size, remaining)` of them, in that order |
| FeedProperties.FeedPageInStoreOrder | index.js:272-282 | a feed page over a collection in id order is in the store's full order, ties by descending id |
| FeedProperties.PageKeepsFeedOrder | index.js:280-281 | a page of a list in the store's full order is in that order |
| FeedProperties.PagesTile | index.js:280-281 | pages `1..k` together are exactly the first `k*size` stories of the ordered list: no story skipped or repeated |
| FeedProperties.RepairIsIdempotent | index.js:287-294 | repairing an already repaired username changes nothing |
| FeedProperties.UnknownOnlyWithoutName | index.js:287-294 | an entry shows `'Unknown'` exactly when neither the story nor an existing author supplies a usable name |
| Flows.RegisteredUserIsAdded | index.js:106-138 | a 201 registration means the request was complete, the e-mail was unused and the generated id unused, and exactly one user document with that e-mail was added under that id at its place in id order |
| Flows.SecondRegistrationRefused | index.js:106-109 | once an e-mail is registered, registering it again gives "Email is already registered" with no write |
| Flows.LoginAfterRegister | index.js:161-192 | logging in with the registered credentials succeeds with claims naming the new user document and returns the registered username and name |
| Flows.RegisterLoginThenPost | index.js:205-247 | register, log in, then post with the token before it expires: the story is created under the new user's id and registered username |
| Flows.CreatedStoryIsRetrievable | index.js:238-254 | a story created with 201 is returned by `GET /stories/:storyID` under the id the reply names, with the fields stored at creation |
| Flows.CreatedStoryListedForAuthor | index.js:238-254 | a story created with 201 is listed for its author by `GET /stories/user/:userID` under the id the reply names, inserted into the earlier listing at one place, with the earlier entries unchanged and in order |
| Flows.CreatedStoryAdded | index.js:238-249 | a story created with 201 is exactly the add of one story under the generated id |
| Flows.ProvisioningIsIdempotent | index.js:64-85 | after a successful provisioning, the next call on the resulting store whose ID token verifies to the same uid writes nothing, answers 200 with the same claims and a 24-hour expiry from its own clock, and repeats the first response when made with the same configuration and token |
| Flows.ProvisioningDoesNotMergeByEmail | index.js:64-74 | an account with the same e-mail but not linked to the uid is kept as it was, and a second, separate user record with that e-mail and another id is added |
| Flows.ProvisionedTwinShadowsPasswordLogin | index.js:161-173 | when provisioning adds a record with an existing e-mail whose id sorts before every other record with that e-mail, password login with that e-mail reaches the new record, which has no hash, and answers 500 whatever the password |

## Left out

- `firebase-admin-init.js`: SDK initialisation only.
- The document store, object storage and identity-provider SDKs: replaced by the in-memory store and by collaborator functions in `Api.Env` (`verifyIdToken`, `createAuthUser`, `upload`) that answer `None` on failure. Storage failures other than these and an `add` under a taken id (a failed `get` or `update`, a lost connection) are not modelled.
- bcrypt: `hash`/`compare` are abstract functions; salting and cost are not modelled.
- Accounts.Register: states that the stored password is `hash(password)`; that the hash differs from the plaintext is a property of bcrypt and is not stated.
- JSON Web Tokens: a token is modelled by its claims, expiry and signing key; the compact string form is an abstract parser (`parseToken`); the `iat`/`exp` fields of `req.user` and an unset `JWT_SECRET` are not modelled.
- `parseFloat`/`parseInt`: coordinates are stored as the abstract number `ParsedFloat(text)`; query parameters arrive as already-parsed integers, so `NaN` paging is not modelled.
- `toLocaleString`: a date is rendered as the abstract `Formatted(milliseconds)`.
- The photo's storage key (`Date.now()`, `path.extname`): stored objects are a list of photos; saving and URL signing are one collaborator call, so a signing failure after a successful save is modelled as no object stored.
- The 1 MiB upload limit, Express routing, `app.listen` and logging.
- Concurrent requests: the model is sequential, so the race windows of registration and provisioning do not arise.
- Missing fields in store queries: a missing and a `null` date or latitude are one case; a zero limit is taken to return no documents.
- Generated ids: the id of the next `add` is the input `Env.newId`, so nothing is stated about how ids are drawn or how unlikely a collision is. Each request gets one id, since every handler adds at most one document.
- Feed.FeedPage: with `location=1` the query has an inequality filter on `lat`, and the store may then order by `lat` before the document name. The model orders that query like the unfiltered feed: newest first, ties by descending id. The order of stories with equal dates under that filter is not stated as the store's.
- Sub-collections: no handler writes one, so a path of three or more segments never names a stored document; their contents are not modelled.
- Feed.PageOf: does not model that the store carries `offset` and `limit` as 32-bit integers. Here they are unbounded, so a page whose offset or size lies beyond that range is answered as a slice of the ordered list. What the store does with such a query (refusing it, which answers 500, or truncating the value) is not stated.

=== FILE: accounts.dfy ===
/**
 * The account endpoints: `POST /verify-google-token` (federated
 * find-or-create), `POST /register` and `POST /login`.
 */
module Accounts {
  import opened Options
  import opened Text
  import opened Session
  import opened Store
  import opened Api

  /**
   * The default username of a provisioned user: `email.split('@')[0]`, the
   * part of the e-mail before its first `@`, or all of it when it has none.
   */
  function DefaultUsername(email: string): (name: string)
    ensures name <= email && '@' !in name
    ensures '@' in email ==> |name| < |email| && email[|name|] == '@'
    ensures '@' !in email ==> name == email
  {
    FirstField(email, '@')
  }

  /**
   * `after` is `before` with exactly one user added, created from the
   * federated claims `fc` under the unused id `userID`, at its place in id
   * order.
   */
  predicate ProvisionedNew(before: Store, after: Store, fc: FederatedClaims, userID: string) {
    && fc.email.Some?
    && !Taken(before.users, userID)
    && after.stories == before.stories && after.objects == before.objects
    && var p := InsertPos(before.users, userID);
       && |after.users| == |before.users| + 1
       && after.users[..p] == before.users[..p] && after.users[p + 1..] == before.users[p..]
       && var d := after.users[p];
          && d.id == userID
          && d.data.firebaseUid == Some(fc.uid)
          && d.data.email == fc.email && d.data.name == fc.name
          && d.data.username == Some(DefaultUsername(fc.email.value))
          && d.data.password.None? && d.data.userID.None?
  }

  /** The claims name a stored user linked to the federated `uid`, by document id and e-mail. */
  predicate NamesLinkedUser(users: seq<Doc<User>>, claims: Claims, uid: string) {
    exists i :: 0 <= i < |users| && users[i].data.firebaseUid == Some(uid) &&
      claims == Claims(users[i].data.email, Some(users[i].id))
  }

  /**
   * `POST /verify-google-token`: find the user by `firebaseUid` or create
   * one, then issue a 24-hour token for it. Only the creation path writes.
   */
  function VerifyGoogleToken(env: Env, s: Store, idToken: Option<string>): (out: Reply)
    ensures !Truthy(idToken) ==> out == Reply(BadRequest(IdTokenRequired), s)
    ensures out.response.status == 400 <==> !Truthy(idToken)
    ensures Truthy(idToken) && env.verifyIdToken(idToken.value).None? ==> out == Reply(Internal, s)
    ensures out.response.status != 200 ==> out.store == s
    ensures out.response.status == 500 ==> out.response == Internal
    ensures out.response.status in {200, 400, 500}
    ensures out.response.status == 200 ==>
      && Truthy(idToken) && env.verifyIdToken(idToken.value).Some?
      && out.response.body.Issued?
      && var fc := env.verifyIdToken(idToken.value).value;
         var t := out.response.body.token;
         && t.key == env.secret && t.exp == env.now + FederatedTtl && t.claims.userID.Some?
         && (AnyWhere(s.users, FirebaseUid, fc.uid) ==> out.store == s)
         && (!AnyWhere(s.users, FirebaseUid, fc.uid) ==> ProvisionedNew(s, out.store, fc, t.claims.userID.value))
         && (SelfIdentified(s.users) ==> NamesLinkedUser(out.store.users, t.claims, fc.uid))
    ensures Truthy(idToken) && env.verifyIdToken(idToken.value).Some? ==>
      var fc := env.verifyIdToken(idToken.value).value;
      (out.response.status == 200 <==>
        AnyWhere(s.users, FirebaseUid, fc.uid) || (fc.email.Some? && fc.name.Some? && !Taken(s.users, env.newId)))
    ensures Truthy(idToken) && env.verifyIdToken(idToken.value).Some? ==>
      var found := FirstWhere(s.users, FirebaseUid, env.verifyIdToken(idToken.value).value.uid);
      found.Some? ==>
        var d := s.users[found.value];
        && out.response.status == 200
        && out.response.body.token.claims == Claims(d.data.email, Some(ValueOr(d.data.userID, d.id)))
    ensures Valid(s) ==> Valid(out.store)
  {
    if !Truthy(idToken) then Reply(BadRequest(IdTokenRequired), s)
    else
      match env.verifyIdToken(idToken.value)
      case None => Reply(Internal, s)
      case Some(fc) =>
        match FirstWhere(s.users, FirebaseUid, fc.uid)
        case Some(k) =>
          var d := s.users[k];
          var claims := Claims(d.data.email, Some(ValueOr(d.data.userID, d.id)));
          assert SelfIdentified(s.users) ==> claims == Claims(d.data.email, Some(d.id));
          Reply(Response(200, Issued(Sign(claims, env.secret, env.now, FederatedTtl))), s)
        case None =>
          // `decodedToken.email.split` throws on a missing e-mail, the
          // document store refuses an `undefined` name, and `add` creates the
          // document only if its generated id is unused: all before the write.
          if fc.email.None? || fc.name.None? || Taken(s.users, env.newId) then Reply(Internal, s)
          else Provision(env, s, fc)
  }

  /** The creation path of `POST /verify-google-token`: a new user linked to `fc.uid`. */
  function Provision(env: Env, s: Store, fc: FederatedClaims): (out: Reply)
    requires fc.email.Some? && fc.name.Some? && !Taken(s.users, env.newId)
    ensures ProvisionedNew(s, out.store, fc, env.newId)
    ensures out.response.status == 200 && out.response.body.Issued?
    ensures var t := out.response.body.token;
      && t.key == env.secret && t.exp == env.now + FederatedTtl
      && t.claims == Claims(fc.email, Some(env.newId))
    ensures SelfIdentified(s.users) ==> NamesLinkedUser(out.store.users, out.response.body.token.claims, fc.uid)
    ensures Valid(s) ==> Valid(out.store)
  {
    var user := User(fc.email, fc.name, Some(DefaultUsername(fc.email.value)), None, Some(fc.uid), None);
    var users := Add(s.users, env.newId, user);
    var claims := Claims(fc.email, Some(env.newId));
    assert users[InsertPos(s.users, env.newId)] == Doc(env.newId, user);
    AddKeepsIdOrder(s.users, env.newId, user);
    AddKeepsSelfIdentified(s.users, env.newId, user);
    Reply(Response(200, Issued(Sign(claims, env.secret, env.now, FederatedTtl))), s.(users := users))
  }

  /** The body of `POST /register`. */
  datatype Registration = Registration(
    email: Option<string>, password: Option<string>, name: Option<string>, username: Option<string>)

  predicate Complete(r: Registration) {
    Truthy(r.email) && Truthy(r.password) && Truthy(r.name) && Truthy(r.username)
  }

  /**
   * `out` is what the writes of a registration leave behind: one user added
   * under the generated id at its place in id order, with the request's
   * fields and the password's hash; linked to the identity-provider uid and
   * answered 201 when the provider creates the account, left unlinked and
   * answered 500 when it fails.
   */
  predicate Enrolled(env: Env, s: Store, req: Registration, out: Reply)
    requires Complete(req)
  {
    && out.store.stories == s.stories && out.store.objects == s.objects
    && var p := InsertPos(s.users, env.newId);
    && |out.store.users| == |s.users| + 1
    && out.store.users[..p] == s.users[..p] && out.store.users[p + 1..] == s.users[p..]
    && var d := out.store.users[p];
       && d.id == env.newId
       && d.data.email == req.email && d.data.name == req.name && d.data.username == req.username
       && d.data.password == Some(env.hash(req.password.value))
       && var uid := env.createAuthUser(req.email.value, req.password.value, req.name.value);
          && (uid.Some? ==> out.response == Response(201, Registered) && d.data.firebaseUid == uid && d.data.userID == Some(d.id))
          && (uid.None? ==> out.response == Internal && d.data.firebaseUid.None? && d.data.userID.None?)
  }

  /**
   * `POST /register`: check fields, then e-mail, then username; then add
   * the user with the hashed password, create the identity-provider
   * account and write its uid and the document id back. A failure of the
   * identity provider leaves the half-made user in place.
   */
  function Register(env: Env, s: Store, req: Registration): (out: Reply)
    ensures !Complete(req) ==> out == Reply(BadRequest(RegistrationFieldsRequired), s)
    ensures Complete(req) && AnyWhere(s.users, Email, req.email.value) ==>
      out == Reply(BadRequest(EmailAlreadyRegistered), s)
    ensures Complete(req) && !AnyWhere(s.users, Email, req.email.value) && AnyWhere(s.users, Username, req.username.value) ==>
      out == Reply(BadRequest(UsernameAlreadyTaken), s)
    ensures Complete(req) && !AnyWhere(s.users, Email, req.email.value) && !AnyWhere(s.users, Username, req.username.value) ==>
      Taken(s.users, env.newId) ==> out == Reply(Internal, s)
    ensures Complete(req) && !AnyWhere(s.users, Email, req.email.value) && !AnyWhere(s.users, Username, req.username.value) ==>
      !Taken(s.users, env.newId) ==> Enrolled(env, s, req, out)
    ensures Valid(s) ==> Valid(out.store)
  {
    if !Complete(req) then Reply(BadRequest(RegistrationFieldsRequired), s)
    else if FirstWhere(s.users, Email, req.email.value).Some? then Reply(BadRequest(EmailAlreadyRegistered), s)
    else if FirstWhere(s.users, Username, req.username.value).Some? then Reply(BadRequest(UsernameAlreadyTaken), s)
    else if Taken(s.users, env.newId) then Reply(Internal, s)
    else Enroll(env, s, req)
  }

  /** The writes of `POST /register` once every check has passed. */
  function Enroll(env: Env, s: Store, req: Registration): (out: Reply)
    requires Complete(req) && !Taken(s.users, env.newId)
    ensures Enrolled(env, s, req, out)
    ensures Valid(s) ==> Valid(out.store)
  {
    var user := User(req.email, req.name, req.username, Some(env.hash(req.password.value)), None, None);
    var users := Add(s.users, env.newId, user);
    var p := InsertPos(s.users, env.newId);
    AddKeepsIdOrder(s.users, env.newId, user);
    AddKeepsSelfIdentified(s.users, env.newId, user);
    match env.createAuthUser(req.email.value, req.password.value, req.name.value)
    case None => Reply(Internal, s.(users := users))
    case Some(uid) =>
      // `userRef.update` rewrites the new document in place.
      var linked := users[p := Doc(env.newId, user.(firebaseUid := Some(uid), userID := Some(env.newId)))];
      assert linked[..p] == users[..p] && linked[p + 1..] == users[p + 1..];
      UpdateKeepsIdOrder(users, p, linked[p]);
      UpdateKeepsSelfIdentified(users, p, linked[p]);
      Reply(Response(201, Registered), s.(users := linked))
  }

  /**
   * `POST /login`: the first user with the e-mail, its stored hash checked
   * against the password; an unknown e-mail and a wrong password get the
   * same answer. Never writes.
   */
  function Login(env: Env, s: Store, email: Option<string>, password: Option<string>): (out: Reply)
    ensures out.store == s
    ensures !Truthy(email) || !Truthy(password) ==> out.response == BadRequest(CredentialsRequired)
    ensures Truthy(email) && Truthy(password) && !AnyWhere(s.users, Email, email.value) ==>
      out.response == BadRequest(InvalidCredentials)
    ensures Truthy(email) && Truthy(password) && AnyWhere(s.users, Email, email.value) ==>
      var u := s.users[FirstWhere(s.users, Email, email.value).value].data;
      && (u.password.None? ==> out.response == Internal)
      && (u.password.Some? && !env.compare(password.value, u.password.value) ==>
            out.response == BadRequest(InvalidCredentials))
      && (u.password.Some? && env.compare(password.value, u.password.value) ==>
            && out.response.status == 200 && out.response.body.LoggedIn?
            && var r := out.response.body.result;
               && r.username == u.username && r.name == u.name && r.userID == u.userID
               && r.token.claims == Claims(email, u.userID)
               && r.token.key == env.secret && r.token.exp == env.now + PasswordLoginTtl)
    ensures out.response.status == 200 ==> Truthy(email) && AnyWhere(s.users, Email, email.value)
  {
    if !Truthy(email) || !Truthy(password) then Reply(BadRequest(CredentialsRequired), s)
    else
      match FirstWhere(s.users, Email, email.value)
      case None => Reply(BadRequest(InvalidCredentials), s)
      case Some(k) =>
        var u := s.users[k].data;
        // `bcrypt.compare` rejects a missing hash: a user without a password gets 500.
        if u.password.None? then Reply(Internal, s)
        else if !env.compare(password.value, u.password.value) then Reply(BadRequest(InvalidCredentials), s)
        else
          var token := Sign(Claims(email, u.userID), env.secret, env.now, PasswordLoginTtl);
          Reply(Response(200, LoggedIn(LoginResult(u.username, u.name, token, u.userID))), s)
  }
}

=== FILE: api.dfy ===
/**
 * What the handlers share: the configuration object with the collaborators
 * they call (identity verifier, password hashing, document and object
 * storage effects are made pure), and the shape of a reply.
 */
module Api {
  import opened Options
  import opened Session
  import opened Store

  /** The verified content of a federated ID token. */
  datatype FederatedClaims = FederatedClaims(uid: string, email: Option<string>, name: Option<string>)

  /**
   * What a handler sees of its surroundings: the JWT secret, the clock
   * (`Date.now()`, milliseconds), the id the document store generates for
   * this request's `add`, and the foreign collaborators. `verifyIdToken`,
   * `createAuthUser` and `upload` answer `None` when the collaborator fails;
   * `hash`/`compare` stand for bcrypt.
   */
  datatype Env = Env(
    secret: string,
    clockMs: int,
    newId: AutoId,
    verifyIdToken: string -> Option<FederatedClaims>,
    hash: string -> string,
    compare: (string, string) -> bool,
    createAuthUser: (string, string, string) -> Option<string>,
    parseToken: string -> Option<Token>,
    upload: Photo -> Option<string>)
  {
    /** The clock as JSON Web Tokens read it: `Math.floor(Date.now() / 1000)` seconds. */
    const now: int := clockMs / 1000
  }

  datatype LoginResult = LoginResult(username: Option<string>, name: Option<string>, token: Token, userID: Option<string>)

  /** `storyDateCreated` as a feed entry renders it. */
  datatype DateText = Formatted(at: int) | DateNotAvailable

  /** An entry of `listStory` in the feed. */
  datatype StoryView = StoryView(
    storyID: string,
    userID: Option<string>,
    title: string,
    username: string,
    description: string,
    photoUrl: string,
    created: DateText)

  /** An entry of `userStories`. */
  datatype UserStoryView = UserStoryView(
    storyID: string,
    title: string,
    username: Option<string>,
    description: string,
    photoUrl: string,
    created: int)

  datatype Body =
    | Failure(message: string)
    | StatusOnly
    | Issued(token: Token)
    | Registered
    | LoggedIn(result: LoginResult)
    | Created(storyID: string)
    | Stories(listStory: seq<StoryView>)
    | Detail(story: Story)
    | UserStories(userStories: seq<UserStoryView>)

  datatype Response = Response(status: int, body: Body)

  /** A handler's answer together with the store it leaves behind. */
  datatype Reply = Reply(response: Response, store: Store)

  const IdTokenRequired := "idToken is required"
  const RegistrationFieldsRequired := "Email, password, name, and username are required"
  const EmailAlreadyRegistered := "Email is already registered"
  const UsernameAlreadyTaken := "Username is already taken"
  const CredentialsRequired := "Email and password are required"
  const InvalidCredentials := "Invalid email or password"
  const StoryFieldsRequired := "storyTitle, storyDescription, and photo are required"
  const StoryNotFound := "Story not found"
  const InternalServerError := "Internal server error"

  function BadRequest(message: string): Response {
    Response(400, Failure(message))
  }

  const Internal := Response(500, Failure(InternalServerError))
}

=== FILE: feed.dfy ===
/**
 * `GET /stories`: the optional location filter, newest-first order, the
 * offset/limit page, and the read-time repair of missing usernames.
 */
module Feed {
  import opened Options
  import opened Text
  import opened Store
  import opened StoryQueries
  import opened Api

  /** `a` may come before `b` in `orderBy('storyDateCreated', 'desc')`; a missing date sorts last. */
  predicate NotBefore(a: Option<int>, b: Option<int>) {
    b.None? || (a.Some? && a.value >= b.value)
  }

  predicate NewestFirst(docs: seq<Doc<Story>>) {
    forall i, j :: 0 <= i < j < |docs| ==> NotBefore(docs[i].data.created, docs[j].data.created)
  }

  /**
   * Insert `d` ahead of the first story strictly older than it, so that
   * among stories of equal date `d` goes last.
   */
  function InsertByDate(d: Doc<Story>, docs: seq<Doc<Story>>): (r: seq<Doc<Story>>)
    ensures multiset(r) == multiset(docs) + multiset{d}
  {
    if |docs| == 0 then [d]
    else if !NotBefore(docs[0].data.created, d.data.created) then [d] + docs
    else
      assert docs == [docs[0]] + docs[1..];
      [docs[0]] + InsertByDate(d, docs[1..])
  }

  lemma NotBeforeTransitive(a: Option<int>, b: Option<int>, c: Option<int>)
    requires NotBefore(a, b) && NotBefore(b, c)
    ensures NotBefore(a, c)
  {
  }

  /** Every story of `InsertByDate(d, docs)` other than `d` comes from `docs`. */
  lemma InsertedFrom(d: Doc<Story>, docs: seq<Doc<Story>>, x: Doc<Story>)
    requires x in InsertByDate(d, docs)
    ensures x == d || x in docs
  {
    assert x in multiset(InsertByDate(d, docs));
  }

  /** A story no older than any story of a newest-first sequence can head it. */
  lemma PrependKeepsNewestFirst(x: Doc<Story>, docs: seq<Doc<Story>>)
    requires NewestFirst(docs) && forall k :: 0 <= k < |docs| ==> NotBefore(x.data.created, docs[k].data.created)
    ensures NewestFirst([x] + docs)
  {
    var r := [x] + docs;
    forall i, j | 0 <= i < j < |r| ensures NotBefore(r[i].data.created, r[j].data.created) {
      assert r[j] == docs[j - 1];
      if i > 0 {
        assert r[i] == docs[i - 1];
      }
    }
  }

  /** Inserting into a newest-first sequence keeps it newest-first. */
  lemma {:induction false} InsertKeepsNewestFirst(d: Doc<Story>, docs: seq<Doc<Story>>)
    requires NewestFirst(docs)
    ensures NewestFirst(InsertByDate(d, docs))
  {
    if |docs| == 0 {
    } else if !NotBefore(docs[0].data.created, d.data.created) {
      forall k | 0 <= k < |docs| ensures NotBefore(d.data.created, docs[k].data.created) {
        if k > 0 {
          NotBeforeTransitive(d.data.created, docs[0].data.created, docs[k].data.created);
        }
      }
      PrependKeepsNewestFirst(d, docs);
    } else {
      var tail := docs[1..];
      assert NewestFirst(tail) by {
        forall i, j | 0 <= i < j < |tail| ensures NotBefore(tail[i].data.created, tail[j].data.created) {
          assert tail[i] == docs[i + 1] && tail[j] == docs[j + 1];
        }
      }
      InsertKeepsNewestFirst(d, tail);
      var rest := InsertByDate(d, tail);
      forall k | 0 <= k < |rest| ensures NotBefore(docs[0].data.created, rest[k].data.created) {
        InsertedFrom(d, tail, rest[k]);
        if rest[k] != d {
          var m :| 0 <= m < |tail| && tail[m] == rest[k];
          assert docs[m + 1] == rest[k];
        }
      }
      PrependKeepsNewestFirst(docs[0], rest);
    }
  }

  /**
   * `a` precedes `b` in the store's full order for
   * `orderBy('storyDateCreated', 'desc')`: newer first, and on equal dates
   * the greater document id first (the implicit order by document name
   * follows the last explicit direction).
   */
  predicate FeedBefore(a: Doc<Story>, b: Doc<Story>) {
    && NotBefore(a.data.created, b.data.created)
    && (a.data.created == b.data.created ==> IdBefore(b.id, a.id))
  }

  predicate FeedOrdered(docs: seq<Doc<Story>>) {
    forall i, j :: 0 <= i < j < |docs| ==> FeedBefore(docs[i], docs[j])
  }

  /** A story that precedes every story of an ordered sequence can head it. */
  lemma PrependKeepsFeedOrder(x: Doc<Story>, docs: seq<Doc<Story>>)
    requires FeedOrdered(docs) && forall k :: 0 <= k < |docs| ==> FeedBefore(x, docs[k])
    ensures FeedOrdered([x] + docs)
  {
    var r := [x] + docs;
    forall i, j | 0 <= i < j < |r| ensures FeedBefore(r[i], r[j]) {
      assert r[j] == docs[j - 1];
      if i > 0 {
        assert r[i] == docs[i - 1];
      }
    }
  }

  lemma FeedOrderedTail(docs: seq<Doc<Story>>)
    requires FeedOrdered(docs) && |docs| > 0
    ensures FeedOrdered(docs[1..])
  {
    var tail := docs[1..];
    forall i, j | 0 <= i < j < |tail| ensures FeedBefore(tail[i], tail[j]) {
      assert tail[i] == docs[i + 1] && tail[j] == docs[j + 1];
    }
  }

  /** Inserting a story whose id precedes every other keeps the store's order. */
  lemma {:induction false} InsertKeepsFeedOrder(d: Doc<Story>, docs: seq<Doc<Story>>)
    requires FeedOrdered(docs)
    requires forall k :: 0 <= k < |docs| ==> IdBefore(d.id, docs[k].id)
    ensures FeedOrdered(InsertByDate(d, docs))
  {
    if |docs| == 0 {
    } else if !NotBefore(docs[0].data.created, d.data.created) {
      forall k | 0 <= k < |docs| ensures FeedBefore(d, docs[k]) {
        if k > 0 {
          assert FeedBefore(docs[0], docs[k]);
          NotBeforeTransitive(d.data.created, docs[0].data.created, docs[k].data.created);
        }
      }
      PrependKeepsFeedOrder(d, docs);
    } else {
      var tail := docs[1..];
      FeedOrderedTail(docs);
      forall k | 0 <= k < |tail| ensures IdBefore(d.id, tail[k].id) {
        assert tail[k] == docs[k + 1];
      }
      InsertKeepsFeedOrder(d, tail);
      var rest := InsertByDate(d, tail);
      forall k | 0 <= k < |rest| ensures FeedBefore(docs[0], rest[k]) {
        InsertedFrom(d, tail, rest[k]);
        if rest[k] != d {
          var m :| 0 <= m < |tail| && tail[m] == rest[k];
          assert docs[m + 1] == rest[k];
        }
      }
      PrependKeepsFeedOrder(docs[0], rest);
    }
  }

  /** `orderBy('storyDateCreated', 'desc')`: a newest-first permutation of `docs`. */
  function SortNewestFirst(docs: seq<Doc<Story>>): (r: seq<Doc<Story>>)
    ensures NewestFirst(r)
    ensures multiset(r) == multiset(docs)
  {
    if |docs| == 0 then []
    else
      assert docs == [docs[0]] + docs[1..];
      var sorted := SortNewestFirst(docs[1..]);
      InsertKeepsNewestFirst(docs[0], sorted);
      InsertByDate(docs[0], sorted)
  }

  /**
   * Sorting a collection listed in id order yields the store's full order:
   * the order `orderBy('storyDateCreated', 'desc')` answers in is the
   * model's sort.
   */
  lemma {:induction false} SortFollowsStoreOrder(docs: seq<Doc<Story>>)
    requires IdOrdered(docs)
    ensures FeedOrdered(SortNewestFirst(docs))
  {
    if |docs| > 0 {
      var tail := docs[1..];
      assert IdOrdered(tail) by {
        forall i, j | 0 <= i < j < |tail| ensures IdBefore(tail[i].id, tail[j].id) {
          assert tail[i] == docs[i + 1] && tail[j] == docs[j + 1];
        }
      }
      SortFollowsStoreOrder(tail);
      var sorted := SortNewestFirst(tail);
      forall k | 0 <= k < |sorted| ensures IdBefore(docs[0].id, sorted[k].id) {
        SortedFrom(tail, k);
        var m :| 0 <= m < |tail| && tail[m] == sorted[k];
        assert docs[m + 1] == sorted[k];
      }
      assert docs == [docs[0]] + tail;
      InsertKeepsFeedOrder(docs[0], sorted);
    }
  }

  /** Every story of the sorted list is one of the input's. */
  lemma SortedFrom(docs: seq<Doc<Story>>, k: nat)
    requires k < |SortNewestFirst(docs)|
    ensures exists m :: 0 <= m < |docs| && docs[m] == SortNewestFirst(docs)[k]
  {
    var sorted := SortNewestFirst(docs);
    assert sorted[k] in multiset(sorted);
    assert sorted[k] in docs;
  }

  function Min(a: int, b: int): int { if a <= b then a else b }
  function Max(a: int, b: int): int { if a >= b then a else b }

  /**
   * `.offset((page - 1) * size).limit(size)`: `None` when the store refuses
   * a negative offset or limit; otherwise the at most `size` documents that
   * start `(page - 1) * size` places into `ordered`.
   */
  function PageOf(ordered: seq<Doc<Story>>, page: int, size: int): (r: Option<seq<Doc<Story>>>)
    ensures r.None? <==> (page - 1) * size < 0 || size < 0
    ensures r.Some? ==>
      var offset := (page - 1) * size;
      && |r.value| == Min(size, Max(0, |ordered| - offset))
      && forall i :: 0 <= i < |r.value| ==> r.value[i] == ordered[offset + i]
  {
    var offset := (page - 1) * size;
    if offset < 0 || size < 0 then None
    else if offset >= |ordered| then Some([])
    else Some(ordered[offset..Min(offset + size, |ordered|)])
  }

  /** The query parameters; `location` is `parseInt(location)`. */
  datatype FeedQuery = FeedQuery(page: Option<int>, size: Option<int>, location: Option<int>)

  function FilterOf(q: FeedQuery): StoryFilter {
    if q.location == Some(1) then WithLocation else AllStories
  }

  /**
   * The documents the store query of `GET /stories` returns, with the
   * defaults `page = 1` and `size = 10`: refused exactly when the offset or
   * the limit is negative, and never more than `size` documents.
   */
  function FeedPage(stories: seq<Doc<Story>>, q: FeedQuery): (r: Option<seq<Doc<Story>>>)
    ensures var page, size := ValueOr(q.page, 1), ValueOr(q.size, 10);
      r.None? <==> (page - 1) * size < 0 || size < 0
    ensures q.page.None? && q.size.None? ==> r.Some? && |r.value| == Min(10, |Where(stories, FilterOf(q))|)
    ensures r.Some? ==> |r.value| <= ValueOr(q.size, 10)
  {
    PageOf(SortNewestFirst(Where(stories, FilterOf(q))), ValueOr(q.page, 1), ValueOr(q.size, 10))
  }

  /** A stored username the feed does not trust: missing, empty or `'Unknown'`. */
  predicate NeedsRepair(stored: Option<string>) {
    !Truthy(stored) || stored.value == "Unknown"
  }

  /**
   * The username a feed entry shows: the stored one unless it needs repair,
   * then the author's current username when it is truthy, else `'Unknown'`.
   */
  function RepairedUsername(stored: Option<string>, author: Option<User>): (name: string)
    ensures !NeedsRepair(stored) ==> name == stored.value
    ensures NeedsRepair(stored) && author.Some? && Truthy(author.value.username) ==> name == author.value.username.value
    ensures NeedsRepair(stored) && (author.None? || !Truthy(author.value.username)) ==> name == "Unknown"
    ensures name != ""
  {
    var named := ValueOr(stored, "");
    var shown := if named == "" then "Unknown" else named;
    if shown != "Unknown" then shown
    else
      match author
      case None => shown
      case Some(u) => if Truthy(u.username) then u.username.value else "Unknown"
  }

  /**
   * The entry's author document when the repair looks it up: `doc(userID).get()`.
   * A path into a sub-collection names no document, since no handler writes one.
   */
  function AuthorOf(d: Doc<Story>, users: seq<Doc<User>>): (r: Option<User>)
    ensures r.Some? ==>
      && ResolveField(d.data.userID).Member?
      && exists i :: 0 <= i < |users| && users[i] == Doc(ResolveField(d.data.userID).id, r.value)
    ensures ResolveField(d.data.userID).Member? && r.None? ==>
      forall i :: 0 <= i < |users| ==> users[i].id != ResolveField(d.data.userID).id
  {
    match ResolveField(d.data.userID)
    case Member(key) => Lookup(users, key)
    case _ => None
  }

  /** The repair look-up throws: it is needed and `doc` refuses the `userID` path. */
  predicate RepairThrows(d: Doc<Story>) {
    NeedsRepair(d.data.username) && ResolveField(d.data.userID).Refused?
  }

  /** One entry of `listStory`, or `None` when its repair look-up throws. */
  function RenderEntry(d: Doc<Story>, users: seq<Doc<User>>): (r: Option<StoryView>)
    ensures r.None? <==> RepairThrows(d)
    ensures r.Some? ==>
      && r.value.storyID == d.id && r.value.userID == d.data.userID
      && r.value.title == d.data.title && r.value.description == d.data.description
      && r.value.photoUrl == d.data.photoUrl
      && (!NeedsRepair(d.data.username) ==> r.value.username == d.data.username.value)
      && (NeedsRepair(d.data.username) ==> r.value.username == RepairedUsername(d.data.username, AuthorOf(d, users)))
      && (d.data.created.None? <==> r.value.created == DateNotAvailable)
      && (d.data.created.Some? ==> r.value.created == Formatted(d.data.created.value))
  {
    if RepairThrows(d) then None
    else
      var author := if NeedsRepair(d.data.username) then AuthorOf(d, users) else None;
      var created := if d.data.created.Some? then Formatted(d.data.created.value) else DateNotAvailable;
      Some(StoryView(d.id, d.data.userID, d.data.title, RepairedUsername(d.data.username, author),
        d.data.description, d.data.photoUrl, created))
  }

  /** Every entry of the page, in order, or `None` as soon as one throws. */
  function RenderFeed(docs: seq<Doc<Story>>, users: seq<Doc<User>>): (r: Option<seq<StoryView>>)
    ensures r.Some? <==> forall i :: 0 <= i < |docs| ==> !RepairThrows(docs[i])
    ensures r.Some? ==>
      && |r.value| == |docs|
      && forall i :: 0 <= i < |docs| ==> Some(r.value[i]) == RenderEntry(docs[i], users)
  {
    if |docs| == 0 then Some([])
    else
      match RenderEntry(docs[0], users)
      case None => None
      case Some(v) =>
        match RenderFeed(docs[1..], users)
        case None =>
          assert forall i :: 1 <= i < |docs| ==> docs[i] == docs[1..][i - 1];
          None
        case Some(rest) => Some([v] + rest)
  }

  /**
   * `GET /stories`: 200 with the rendered page, or 500 when the store
   * refuses the page bounds or a repair look-up throws. Never writes.
   */
  function ListStories(s: Store, q: FeedQuery): (r: Response)
    ensures r.status in {200, 500}
    ensures r.status == 500 ==> r == Internal
    ensures r.status == 200 <==> FeedPage(s.stories, q).Some? && forall i :: 0 <= i < |FeedPage(s.stories, q).value| ==> !RepairThrows(FeedPage(s.stories, q).value[i])
    ensures r.status == 200 ==>
      && r.body.Stories?
      && var page := FeedPage(s.stories, q).value;
         && |r.body.listStory| == |page| <= ValueOr(q.size, 10)
         && (forall i :: 0 <= i < |page| ==> r.body.listStory[i].storyID == page[i].id)
         && (forall i :: 0 <= i < |page| ==> Some(r.body.listStory[i]) == RenderEntry(page[i], s.users))
  {
    match FeedPage(s.stories, q)
    case None => Internal
    case Some(page) =>
      match RenderFeed(page, s.users)
      case None => Internal
      case Some(entries) => Response(200, Stories(entries))
  }
}

/** What the feed promises across pages and requests. */
module FeedProperties {
  import opened Options
  import opened Text
  import opened Store
  import opened StoryQueries
  import opened Api
  import opened Feed

  /** A page is a newest-first run of `ordered` when `ordered` is newest-first. */
  lemma PageIsRunOf(ordered: seq<Doc<Story>>, page: int, size: int)
    requires PageOf(ordered, page, size).Some?
    ensures var p := PageOf(ordered, page, size).value;
      && |p| <= size
      && (forall i :: 0 <= i < |p| ==> p[i] in ordered)
      && (NewestFirst(ordered) ==> NewestFirst(p))
  {
    var p := PageOf(ordered, page, size).value;
    var offset := (page - 1) * size;
    forall i | 0 <= i < |p|
      ensures p[i] in ordered
    {
      assert p[i] == ordered[offset + i];
    }
    if NewestFirst(ordered) {
      forall i, j | 0 <= i < j < |p|
        ensures NotBefore(p[i].data.created, p[j].data.created)
      {
        assert p[i] == ordered[offset + i] && p[j] == ordered[offset + j];
      }
    }
  }

  /**
   * A page is newest-first, holds only stored stories, at most `size` of
   * them, and only stories with a latitude when `location` is 1.
   */
  lemma {:induction false} FeedPageIsFilteredSortedSlice(stories: seq<Doc<Story>>, q: FeedQuery)
    requires FeedPage(stories, q).Some?
    ensures var page := FeedPage(stories, q).value;
      && NewestFirst(page)
      && |page| <= ValueOr(q.size, 10)
      && (forall i :: 0 <= i < |page| ==> page[i] in stories)
      && (q.location == Some(1) ==> forall i :: 0 <= i < |page| ==> page[i].data.lat.Some?)
  {
    var kept := Where(stories, FilterOf(q));
    var ordered := SortNewestFirst(kept);
    var page := FeedPage(stories, q).value;
    PageIsRunOf(ordered, ValueOr(q.page, 1), ValueOr(q.size, 10));
    WhereMembers(stories, FilterOf(q));
    forall i | 0 <= i < |page|
      ensures page[i] in stories && Keeps(FilterOf(q), page[i])
    {
      assert page[i] in multiset(ordered);
      assert page[i] in kept;
    }
  }

  /**
   * A feed page is the run of the filtered stories, sorted newest first,
   * that starts `(page - 1) * size` places in: at most `size` of them, and
   * fewer only when the sorted list runs out.
   */
  lemma FeedPageIsOffsetRun(stories: seq<Doc<Story>>, q: FeedQuery)
    requires FeedPage(stories, q).Some?
    ensures var ordered := SortNewestFirst(Where(stories, FilterOf(q)));
      var offset := (ValueOr(q.page, 1) - 1) * ValueOr(q.size, 10);
      var page := FeedPage(stories, q).value;
      && offset >= 0
      && |page| == Min(ValueOr(q.size, 10), Max(0, |ordered| - offset))
      && forall i :: 0 <= i < |page| ==> page[i] == ordered[offset + i]
  {
  }

  /**
   * Over a collection kept in id order, a feed page lists its stories in the
   * store's full order: newest first, stories of equal date by descending id.
   */
  lemma FeedPageInStoreOrder(stories: seq<Doc<Story>>, q: FeedQuery)
    requires IdOrdered(stories) && FeedPage(stories, q).Some?
    ensures FeedOrdered(FeedPage(stories, q).value)
  {
    var kept := Where(stories, FilterOf(q));
    WhereKeepsIdOrder(stories, FilterOf(q));
    SortFollowsStoreOrder(kept);
    PageKeepsFeedOrder(SortNewestFirst(kept), ValueOr(q.page, 1), ValueOr(q.size, 10));
  }

  /** A page of a list in the store's full order is in that order too. */
  lemma PageKeepsFeedOrder(ordered: seq<Doc<Story>>, page: int, size: int)
    requires PageOf(ordered, page, size).Some? && FeedOrdered(ordered)
    ensures FeedOrdered(PageOf(ordered, page, size).value)
  {
    var p := PageOf(ordered, page, size).value;
    var offset := (page - 1) * size;
    forall i, j | 0 <= i < j < |p| ensures FeedBefore(p[i], p[j]) {
      assert p[i] == ordered[offset + i] && p[j] == ordered[offset + j];
    }
  }

  /** Pages `1..k` of `ordered`, one after the other. */
  function FirstPages(ordered: seq<Doc<Story>>, size: nat, k: nat): seq<Doc<Story>> {
    if k == 0 then [] else FirstPages(ordered, size, k - 1) + PageOf(ordered, k, size).value
  }

  /**
   * Offset pagination neither skips nor repeats: pages `1..k` together are
   * exactly the first `k * size` stories of the ordered list.
   */
  lemma {:induction false} PagesTile(ordered: seq<Doc<Story>>, size: nat, k: nat)
    ensures FirstPages(ordered, size, k) == ordered[..Min(k * size, |ordered|)]
  {
    if k > 0 {
      PagesTile(ordered, size, k - 1);
      PageExtends(ordered, size, k);
    }
  }

  /** Page `k` continues the stories of the pages before it. */
  lemma PageExtends(ordered: seq<Doc<Story>>, size: nat, k: nat)
    requires k > 0
    ensures ordered[..Min((k - 1) * size, |ordered|)] + PageOf(ordered, k, size).value == ordered[..Min(k * size, |ordered|)]
  {
    var offset := (k - 1) * size;
    assert k * size == offset + size;
    var page := PageOf(ordered, k, size).value;
    if offset >= |ordered| {
      assert |page| == 0;
    } else {
      assert page == ordered[offset..Min(offset + size, |ordered|)];
    }
  }

  /** Repairing an already repaired username changes nothing. */
  lemma RepairIsIdempotent(stored: Option<string>, author: Option<User>)
    ensures RepairedUsername(Some(RepairedUsername(stored, author)), author) == RepairedUsername(stored, author)
  {
  }

  /** A feed entry shows `'Unknown'` only when neither the story nor its author supplies a name. */
  lemma UnknownOnlyWithoutName(stored: Option<string>, author: Option<User>)
    ensures RepairedUsername(stored, author) == "Unknown" <==>
      NeedsRepair(stored) && (author.None? || NeedsRepair(author.value.username))
  {
  }
}

=== FILE: flows.dfy ===
/**
 * Properties that span several requests: what one handler leaves in the
 * store, and the token it hands out, as the next handler sees them.
 */
module Flows {
  import opened Options
  import opened Text
  import opened Session
  import opened Store
  import opened Api
  import opened Accounts
  import opened Stories

  /**
   * A successful registration adds exactly one document to `users`, under
   * the generated id and at its place in id order.
   */
  lemma RegisteredUserIsAdded(env: Env, s: Store, req: Registration)
    requires Register(env, s, req).response.status == 201
    ensures var after := Register(env, s, req).store;
      var p := InsertPos(s.users, env.newId);
      && Complete(req) && !AnyWhere(s.users, Email, req.email.value) && !Taken(s.users, env.newId)
      && after.users == s.users[..p] + [after.users[p]] + s.users[p..]
      && after.users[p].id == env.newId && after.users[p].data.email == req.email
  {
    var after := Register(env, s, req).store;
    var p := InsertPos(s.users, env.newId);
    assert after.users == after.users[..p] + [after.users[p]] + after.users[p + 1..];
  }

  /**
   * Once an e-mail is registered, registering it again is refused with
   * "Email is already registered" and writes nothing, whatever the other fields.
   */
  lemma {:induction false} SecondRegistrationRefused(env: Env, s: Store, req: Registration, again: Env, req2: Registration)
    requires Register(env, s, req).response.status == 201
    requires Complete(req2) && req2.email == req.email
    ensures var after := Register(env, s, req).store;
      Register(again, after, req2) == Reply(BadRequest(EmailAlreadyRegistered), after)
  {
    RegisteredUserIsAdded(env, s, req);
    var after := Register(env, s, req).store;
    assert Matches(after.users[InsertPos(s.users, env.newId)], Email, req.email.value);
  }

  /**
   * Logging in right after registering, with the same e-mail and password,
   * succeeds and the token's claims name the new user document.
   */
  lemma {:induction false} LoginAfterRegister(env: Env, s: Store, req: Registration, later: Env)
    requires Register(env, s, req).response.status == 201
    requires later.compare(req.password.value, env.hash(req.password.value))
    ensures var after := Register(env, s, req).store;
      var login := Login(later, after, req.email, req.password).response;
      && login.status == 200 && login.body.LoggedIn?
      && login.body.result.token.claims == Claims(req.email, Some(env.newId))
      && login.body.result.username == req.username
      && login.body.result.name == req.name
  {
    RegisteredUserIsAdded(env, s, req);
    var after := Register(env, s, req).store;
    var p := InsertPos(s.users, env.newId);
    forall j | 0 <= j < p ensures !Matches(after.users[j], Email, req.email.value) {
      assert after.users[j] == s.users[j];
    }
    FirstMatchAt(after.users, Email, req.email.value, p);
  }

  /**
   * Register, log in, then post a story with the token before it expires:
   * the story is created, attributed to the new user's document id and
   * carrying the registered username.
   */
  lemma {:induction false} RegisterLoginThenPost(
    env: Env, s: Store, req: Registration, serialize: Token -> string, later: Env, form: StoryForm)
    requires Register(env, s, req).response.status == 201
    requires env.compare(req.password.value, env.hash(req.password.value))
    requires forall t :: later.parseToken(serialize(t)) == Some(t) && serialize(t) != "" && ' ' !in serialize(t)
    requires later.secret == env.secret && later.now < env.now + PasswordLoginTtl
    requires CompleteForm(form) && later.upload(form.photo.value).Some?
    requires !Taken(s.stories, later.newId)
    ensures var after := Register(env, s, req).store;
      var login := Login(env, after, req.email, req.password).response;
      && login.body.LoggedIn?
      && var posted := CreateStory(later, after, Some("Bearer " + serialize(login.body.result.token)), form);
         var p := InsertPos(s.stories, later.newId);
         && posted.response.status == 201
         && posted.store.stories[p].data.userID == Some(env.newId)
         && posted.store.stories[p].data.username == req.username
  {
    LoginAfterRegister(env, s, req, env);
    RegisteredUserLookup(env, s, req);
    var after := Register(env, s, req).store;
    var token := Login(env, after, req.email, req.password).response.body.result.token;
    SignedTokenAuthenticates(token.claims, env.secret, env.now, PasswordLoginTtl, serialize, later.parseToken, later.now);
    ResolveId(env.newId);
  }

  /** After a successful registration, `doc(newId)` is the registered user. */
  lemma RegisteredUserLookup(env: Env, s: Store, req: Registration)
    requires Register(env, s, req).response.status == 201
    ensures var after := Register(env, s, req).store;
      var u := Lookup(after.users, env.newId);
      u.Some? && u.value.username == req.username
  {
    RegisteredUserIsAdded(env, s, req);
    var after := Register(env, s, req).store;
    var p := InsertPos(s.users, env.newId);
    forall i | 0 <= i < |after.users| && i != p ensures after.users[i].id != env.newId {
      if i < p {
        assert after.users[i] == s.users[i];
      } else {
        assert after.users[i] == s.users[i - 1];
      }
    }
    assert after.users[p] == Doc(env.newId, after.users[p].data);
  }

  /**
   * Provisioning is idempotent per federated uid: after a successful call,
   * any later call whose ID token verifies to the same uid writes nothing
   * and issues a token for the same claims; with the same configuration
   * and ID token the response is the same.
   */
  lemma {:induction false} ProvisioningIsIdempotent(
    env: Env, s: Store, idToken: Option<string>, env2: Env, idToken2: Option<string>)
    requires VerifyGoogleToken(env, s, idToken).response.status == 200
    requires Truthy(idToken2) && env2.verifyIdToken(idToken2.value).Some?
    requires env2.verifyIdToken(idToken2.value).value.uid == env.verifyIdToken(idToken.value).value.uid
    ensures var first := VerifyGoogleToken(env, s, idToken);
      var second := VerifyGoogleToken(env2, first.store, idToken2);
      && second.store == first.store
      && second.response.status == 200
      && second.response.body.token.claims == first.response.body.token.claims
      && second.response.body.token.exp == env2.now + FederatedTtl
      && (env2 == env && idToken2 == idToken ==> second.response == first.response)
  {
    var first := VerifyGoogleToken(env, s, idToken);
    var fc := env.verifyIdToken(idToken.value).value;
    if !AnyWhere(s.users, FirebaseUid, fc.uid) {
      var user := User(fc.email, fc.name, Some(DefaultUsername(fc.email.value)), None, Some(fc.uid), None);
      assert first.store.users == Add(s.users, env.newId, user);
      FirstWhereAddNew(s.users, env.newId, user, FirebaseUid, fc.uid);
    }
  }

  /**
   * Provisioning keys on the federated uid only: an existing account with
   * the same e-mail but no link to that uid gets a second, separate record.
   */
  lemma {:induction false} ProvisioningDoesNotMergeByEmail(env: Env, s: Store, idToken: Option<string>, k: nat)
    requires Truthy(idToken) && env.verifyIdToken(idToken.value).Some?
    requires var fc := env.verifyIdToken(idToken.value).value;
      && fc.email.Some? && fc.name.Some?
      && !AnyWhere(s.users, FirebaseUid, fc.uid) && !Taken(s.users, env.newId)
      && k < |s.users| && s.users[k].data.email == fc.email
    ensures var after := VerifyGoogleToken(env, s, idToken).store;
      var p := InsertPos(s.users, env.newId);
      var kept := if k < p then k else k + 1;
      && |after.users| == |s.users| + 1
      && after.users[kept] == s.users[k]
      && after.users[p].data.email == s.users[k].data.email
      && after.users[p].id != s.users[k].id
  {
    var after := VerifyGoogleToken(env, s, idToken).store;
    var p := InsertPos(s.users, env.newId);
    if k < p {
      assert after.users[k] == s.users[k];
    } else {
      assert after.users[k + 1] == s.users[k];
    }
  }

  /**
   * Password login takes the first user with the e-mail in id order. When
   * provisioning adds a record with the same e-mail whose id sorts before
   * every existing record with that e-mail, a later password login with that
   * e-mail reaches the provisioned record, which has no password hash, and
   * answers 500 whatever the password.
   */
  lemma {:induction false} ProvisionedTwinShadowsPasswordLogin(
    env: Env, s: Store, idToken: Option<string>, later: Env, password: Option<string>)
    requires IdOrdered(s.users)
    requires VerifyGoogleToken(env, s, idToken).response.status == 200
    requires var fc := env.verifyIdToken(idToken.value).value;
      && !AnyWhere(s.users, FirebaseUid, fc.uid)
      && Truthy(fc.email) && AnyWhere(s.users, Email, fc.email.value)
      && IdBefore(env.newId, s.users[FirstWhere(s.users, Email, fc.email.value).value].id)
    requires Truthy(password)
    ensures var after := VerifyGoogleToken(env, s, idToken).store;
      Login(later, after, env.verifyIdToken(idToken.value).value.email, password).response == Internal
  {
    var fc := env.verifyIdToken(idToken.value).value;
    var after := VerifyGoogleToken(env, s, idToken).store;
    var user := User(fc.email, fc.name, Some(DefaultUsername(fc.email.value)), None, Some(fc.uid), None);
    assert after.users == Add(s.users, env.newId, user);
    FirstWhereAfterAdd(s.users, env.newId, user, Email, fc.email.value);
    assert after.users[InsertPos(s.users, env.newId)].data.password.None?;
  }

  /** A story created with 201 is the collection's add under the generated id. */
  lemma CreatedStoryAdded(env: Env, s: Store, authorization: Option<string>, form: StoryForm)
    requires CreateStory(env, s, authorization, form).response.status == 201
    ensures var out := CreateStory(env, s, authorization, form);
      var d := out.store.stories[InsertPos(s.stories, env.newId)];
      && d.id == env.newId
      && out.store.stories == Add(s.stories, env.newId, d.data)
  {
    var out := CreateStory(env, s, authorization, form);
    var p := InsertPos(s.stories, env.newId);
    var d := out.store.stories[p];
    var added := Add(s.stories, env.newId, d.data);
    assert out.store.stories == out.store.stories[..p] + [d] + out.store.stories[p + 1..];
    assert added == added[..p] + [added[p]] + added[p + 1..];
  }

  /** A story created with 201 is returned by `GET /stories/:storyID` under the id the reply names. */
  lemma {:induction false} CreatedStoryIsRetrievable(env: Env, s: Store, authorization: Option<string>, form: StoryForm)
    requires CreateStory(env, s, authorization, form).response.status == 201
    ensures var out := CreateStory(env, s, authorization, form);
      var r := GetStory(out.store, out.response.body.storyID);
      r.status == 200 && r.body.story == out.store.stories[InsertPos(s.stories, env.newId)].data
  {
    var out := CreateStory(env, s, authorization, form);
    var d := out.store.stories[InsertPos(s.stories, env.newId)];
    CreatedStoryAdded(env, s, authorization, form);
    LookupAdded(s.stories, env.newId, d.data);
    ResolveId(env.newId);
  }

  /**
   * A story created with 201 is listed by `GET /stories/user/:userID` for
   * its author, with the username stored at creation, at its place in id
   * order; the other entries are unchanged and keep their order.
   */
  lemma {:induction false} CreatedStoryListedForAuthor(env: Env, s: Store, authorization: Option<string>, form: StoryForm)
    requires CreateStory(env, s, authorization, form).response.status == 201
    requires var a := Authenticate(authorization, env.parseToken, env.secret, env.now);
      a.Authenticated? && a.user.userID.Some? && GetUserStories(s, a.user.userID.value).status == 200
    ensures var a := Authenticate(authorization, env.parseToken, env.secret, env.now);
      var out := CreateStory(env, s, authorization, form);
      var d := out.store.stories[InsertPos(s.stories, env.newId)];
      var before := GetUserStories(s, a.user.userID.value).body.userStories;
      var after := GetUserStories(out.store, a.user.userID.value);
      && after.status == 200
      && d.id == out.response.body.storyID
      && exists q :: 0 <= q <= |before| && after.body.userStories == before[..q] + [UserEntry(d)] + before[q..]
  {
    var a := Authenticate(authorization, env.parseToken, env.secret, env.now);
    var out := CreateStory(env, s, authorization, form);
    var d := out.store.stories[InsertPos(s.stories, env.newId)];
    CreatedStoryAdded(env, s, authorization, form);
    UserListingOfAddedStory(s, out.store, d, a.user.userID.value);
  }
}

=== FILE: options.dfy ===
/** A JavaScript value that may be absent (`undefined`, `null` or a missing field). */
module Options {
  datatype Option<+T> = None | Some(value: T)

  /**
   * The value when present, otherwise `fallback`: a destructuring default or
   * `??`, which, unlike `||`, keeps a present but falsy value.
   */
  function ValueOr<T>(o: Option<T>, fallback: T): T {
    if o.Some? then o.value else fallback
  }
}

=== FILE: session.dfy ===
/**
 * Session tokens and the bearer-token gate (`authenticateToken`).
 *
 * A signed token is seen through what signing puts in it: the claims, the
 * absolute expiry in seconds and the key that signed it. Signing is
 * deterministic in those; verification fails for a foreign key or once the
 * clock has reached the expiry (the `jsonwebtoken` rule `now >= exp`).
 * The compact string form of a token is left to an abstract parser.
 */
module Session {
  import opened Options
  import opened Text

  /** `expiresIn: '1h'` on the password path, in seconds. */
  const PasswordLoginTtl: int := 60 * 60
  /** `expiresIn: '24h'` on the federated path, in seconds. */
  const FederatedTtl: int := 24 * 60 * 60

  /** The payload `{ email, userID }`; either may be `undefined`. */
  datatype Claims = Claims(email: Option<string>, userID: Option<string>)

  datatype Token = Token(claims: Claims, exp: int, key: string)

  /** `jwt.verify`: the claims of a token signed with `key` that has not yet expired. */
  function Verify(t: Token, key: string, now: int): Option<Claims> {
    if t.key == key && now < t.exp then Some(t.claims) else None
  }

  /** `jwt.sign(claims, key, { expiresIn: ttl })` at clock `now`. */
  function Sign(claims: Claims, key: string, now: int, ttl: int): (t: Token)
    ensures forall later :: Verify(t, key, later) == Some(claims) <==> later < now + ttl
    ensures forall other, later :: other != key ==> Verify(t, other, later).None?
  {
    Token(claims, now + ttl, key)
  }

  /**
   * `authHeader && authHeader.split(' ')[1]`. An empty header is falsy and is
   * itself the result (an empty token, not a missing one).
   */
  function BearerToken(header: Option<string>): (r: Option<string>)
    ensures r.None? <==> header.None? || (header.value != "" && ' ' !in header.value)
    ensures header == Some("") ==> r == Some("")
    ensures header.Some? && ' ' in header.value ==>
      var scheme := FirstField(header.value, ' ');
      r == Some(FirstField(header.value[|scheme| + 1..], ' '))
  {
    match header
    case None => None
    case Some(h) => if h == "" then Some("") else SecondField(h, ' ')
  }

  /** `Authorization: <scheme> <token>` yields `<token>` when neither holds a space. */
  lemma BearerTokenOfWellFormedHeader(scheme: string, token: string)
    requires ' ' !in scheme && ' ' !in token
    ensures BearerToken(Some(scheme + " " + token)) == Some(token)
  {
    SplitJoin([scheme, token], ' ');
    assert Join([scheme, token], ' ') == scheme + " " + token;
  }

  datatype AuthResult = Unauthenticated | Forbidden | Authenticated(user: Claims)

  /** The status `authenticateToken` answers with when it does not call `next()`. */
  function AuthStatus(a: AuthResult): int
    requires !a.Authenticated?
  {
    if a.Unauthenticated? then 401 else 403
  }

  /**
   * `authenticateToken`: no token gives 401; an empty token (`jwt.verify`
   * refuses it before decoding), a token that does not parse, one that
   * carries a foreign signature or one that has expired gives 403; otherwise the
   * decoded claims become the acting user, with no look-up in the store.
   */
  function Authenticate(header: Option<string>, parse: string -> Option<Token>, key: string, now: int): (a: AuthResult)
    ensures a.Unauthenticated? <==> BearerToken(header).None?
    ensures BearerToken(header) == Some("") ==> a == Forbidden
    ensures a.Authenticated? ==>
      var t := parse(BearerToken(header).value);
      BearerToken(header).value != "" &&
      t.Some? && t.value.key == key && now < t.value.exp && a.user == t.value.claims
    ensures a == Forbidden ==>
      var t := parse(BearerToken(header).value);
      BearerToken(header).value == "" || t.None? || t.value.key != key || now >= t.value.exp
  {
    match BearerToken(header)
    case None => Unauthenticated
    case Some(raw) =>
      if raw == "" then Forbidden
      else
        match parse(raw)
        case None => Forbidden
        case Some(t) =>
          match Verify(t, key, now)
          case None => Forbidden
          case Some(claims) => Authenticated(claims)
  }

  /**
   * A token signed with the process key, serialised to a non-empty string
   * without spaces (as a compact JWT is) and sent back as `Bearer <token>`,
   * authenticates as exactly its claims until its expiry and is refused
   * with 403 from then on.
   */
  lemma {:induction false} SignedTokenAuthenticates(
    claims: Claims, key: string, issuedAt: int, ttl: int,
    serialize: Token -> string, parse: string -> Option<Token>, now: int)
    requires var t := Sign(claims, key, issuedAt, ttl);
      parse(serialize(t)) == Some(t) && serialize(t) != "" && ' ' !in serialize(t)
    ensures var t := Sign(claims, key, issuedAt, ttl);
      var a := Authenticate(Some("Bearer " + serialize(t)), parse, key, now);
      (now < issuedAt + ttl ==> a == Authenticated(claims)) &&
      (now >= issuedAt + ttl ==> a == Forbidden)
  {
    var t := Sign(claims, key, issuedAt, ttl);
    var raw := serialize(t);
    var header := Some("Bearer " + raw);
    assert BearerToken(header) == Some(raw) by {
      BearerTokenOfWellFormedHeader("Bearer", raw);
    }
    assert Verify(t, key, now) == if now < issuedAt + ttl then Some(claims) else None;
  }
}

=== FILE: store.dfy ===
/**
 * The two document collections the service reads and writes, `users` and
 * `stories`, plus the photo objects held by object storage. A collection is
 * a sequence of documents, each with a store-assigned id, kept in the order
 * in which the document store returns the results of a query without
 * `orderBy`: ascending document id (`Valid` below).
 */
module Store {
  import opened Options
  import opened Text

  /** A document: a store-assigned id and the fields written to it. */
  datatype Doc<T> = Doc(id: string, data: T)

  /**
   * A `users` document. `password` holds the bcrypt hash and is present only
   * for password-registered users; `firebaseUid` and `userID` are written
   * after creation (registration) or `firebaseUid` at creation (provisioning).
   */
  datatype User = User(
    email: Option<string>,
    name: Option<string>,
    username: Option<string>,
    password: Option<string>,
    firebaseUid: Option<string>,
    userID: Option<string>)

  /** The number `parseFloat(text)`; floating-point parsing is not modelled. */
  datatype Num = ParsedFloat(text: string)

  /** An uploaded photo as the upload middleware hands it over. */
  datatype Photo = Photo(originalName: string, mimeType: string, bytes: seq<bv8>)

  /** A `stories` document; `created` is the server clock at creation (`new Date()`), in milliseconds. */
  datatype Story = Story(
    title: string,
    description: string,
    photoUrl: string,
    lat: Option<Num>,
    lon: Option<Num>,
    created: Option<int>,
    userID: Option<string>,
    username: Option<string>)

  datatype Store = Store(users: seq<Doc<User>>, stories: seq<Doc<Story>>, objects: seq<Photo>)

  /** The user fields the handlers query with `where(field, '==', value)`. */
  datatype UserField = Email | Username | FirebaseUid

  function FieldOf(u: User, f: UserField): Option<string> {
    match f
    case Email => u.email
    case Username => u.username
    case FirebaseUid => u.firebaseUid
  }

  predicate Matches(d: Doc<User>, f: UserField, v: string) {
    FieldOf(d.data, f) == Some(v)
  }

  /** The query `where(f, '==', v)` is non-empty. */
  predicate AnyWhere(users: seq<Doc<User>>, f: UserField, v: string) {
    exists i :: 0 <= i < |users| && Matches(users[i], f, v)
  }

  /** Position of `docs[0]` of the query `where(f, '==', v)`, if any. */
  function FirstWhere(users: seq<Doc<User>>, f: UserField, v: string): (r: Option<nat>)
    ensures r.None? <==> !AnyWhere(users, f, v)
    ensures r.Some? ==>
      && r.value < |users|
      && Matches(users[r.value], f, v)
      && forall j :: 0 <= j < r.value ==> !Matches(users[j], f, v)
  {
    FirstWhereFrom(users, f, v, 0)
  }

  /** The first match at or after position `i`. */
  function FirstWhereFrom(users: seq<Doc<User>>, f: UserField, v: string, i: nat): (r: Option<nat>)
    requires i <= |users|
    ensures r.None? <==> forall j :: i <= j < |users| ==> !Matches(users[j], f, v)
    ensures r.Some? ==>
      && i <= r.value < |users|
      && Matches(users[r.value], f, v)
      && forall j :: i <= j < r.value ==> !Matches(users[j], f, v)
    decreases |users| - i
  {
    if i == |users| then None
    else if Matches(users[i], f, v) then Some(i)
    else FirstWhereFrom(users, f, v, i + 1)
  }

  /** Position of the document `doc(id)`, if it exists. */
  function IndexOf<T>(docs: seq<Doc<T>>, id: string): (r: Option<nat>)
    ensures r.None? <==> forall i :: 0 <= i < |docs| ==> docs[i].id != id
    ensures r.Some? ==> r.value < |docs| && docs[r.value].id == id
  {
    if |docs| == 0 then None
    else if docs[0].id == id then Some(0)
    else
      match IndexOf(docs[1..], id)
      case None =>
        assert forall i :: 1 <= i < |docs| ==> docs[i] == docs[1..][i - 1];
        None
      case Some(k) => Some(k + 1)
  }

  /** Some document of the collection already carries `id`. */
  predicate Taken<T>(docs: seq<Doc<T>>, id: string) {
    exists i :: 0 <= i < |docs| && docs[i].id == id
  }

  /** A document id: one non-empty path segment. */
  predicate ValidDocId(id: string) {
    id != "" && '/' !in id
  }

  /** The ids the store generates for `add`: always a single segment. */
  type AutoId = id: string | ValidDocId(id) witness "0"

  /** The non-empty fields of `fields`, in order. */
  function NonEmpty(fields: seq<string>): (r: seq<string>)
    ensures |r| <= |fields|
    ensures forall i :: 0 <= i < |r| ==> r[i] != "" && r[i] in fields
  {
    if |fields| == 0 then []
    else if fields[0] == "" then NonEmpty(fields[1..])
    else [fields[0]] + NonEmpty(fields[1..])
  }

  /**
   * The segments the document store reads from a path: the fields of
   * `path.split('/')` without the empty ones, so a leading, trailing or
   * repeated `/` adds no segment.
   */
  function Segments(path: string): (segs: seq<string>)
    ensures forall i :: 0 <= i < |segs| ==> ValidDocId(segs[i])
  {
    NonEmpty(Split(path, '/'))
  }

  predicate DoubleSlash(path: string) {
    exists i :: 0 <= i < |path| - 1 && path[i] == '/' && path[i + 1] == '/'
  }

  /**
   * Where `collection.doc(path)` leads: it throws (`Refused`) for an empty
   * path, a path holding `//`, or an even number of segments, which names a
   * collection rather than a document; one segment names a document of the
   * collection; three or more name a document of a sub-collection.
   */
  datatype DocRef = Refused | Member(id: string) | Nested

  function Resolve(path: string): (r: DocRef)
    ensures r.Refused? <==> path == "" || DoubleSlash(path) || |Segments(path)| % 2 == 0
    ensures r.Member? ==> ValidDocId(r.id)
  {
    var segs := Segments(path);
    if path == "" || DoubleSlash(path) || |segs| % 2 == 0 then Refused
    else if |segs| == 1 then Member(segs[0])
    else Nested
  }

  /** `doc(v)` of a field that may be `undefined`: `doc(undefined)` throws. */
  function ResolveField(v: Option<string>): (r: DocRef)
    ensures v.None? ==> r.Refused?
  {
    if v.None? then Refused else Resolve(v.value)
  }

  /** A document id is a path that names itself. */
  lemma ResolveId(id: string)
    requires ValidDocId(id)
    ensures Resolve(id) == Member(id)
  {
    SplitWithoutSeparator(id, '/');
    assert NonEmpty([id]) == [id];
    assert !DoubleSlash(id);
  }

  /** A trailing `/` is dropped: `doc(id + '/')` names the same document. */
  lemma ResolveTrailingSlash(id: string)
    requires ValidDocId(id)
    ensures Resolve(id + "/") == Member(id)
  {
    var path := id + "/";
    SplitAtFirstSeparator(id, "", '/');
    assert id + ['/'] + "" == path;
    assert Split("", '/') == [""];
    assert Split(path, '/') == [id, ""];
    assert NonEmpty([id, ""]) == [id] by {
      assert NonEmpty([""]) == [];
      assert [id, ""][1..] == [""];
    }
    assert forall i :: 0 <= i < |id| ==> path[i] == id[i];
    assert !DoubleSlash(path);
  }

  /** Three segments name a document of a sub-collection. */
  lemma ResolveThreeSegments(a: string, b: string, c: string)
    requires ValidDocId(a) && ValidDocId(b) && ValidDocId(c)
    ensures Resolve(a + "/" + b + "/" + c) == Nested
  {
    SplitThreeSegments(a, b, c);
    assert NonEmpty([a, b, c]) == [a, b, c] by {
      assert [a, b, c][1..] == [b, c] && [b, c][1..] == [c];
      assert NonEmpty([c]) == [c];
    }
    NoDoubleSlashInThreeSegments(a, b, c);
  }

  lemma SplitThreeSegments(a: string, b: string, c: string)
    requires ValidDocId(a) && ValidDocId(b) && ValidDocId(c)
    ensures Split(a + "/" + b + "/" + c, '/') == [a, b, c]
  {
    var tail := b + "/" + c;
    assert a + "/" + b + "/" + c == a + ['/'] + tail;
    SplitAtFirstSeparator(a, tail, '/');
    SplitAtFirstSeparator(b, c, '/');
    SplitWithoutSeparator(c, '/');
  }

  lemma NoDoubleSlashInThreeSegments(a: string, b: string, c: string)
    requires ValidDocId(a) && ValidDocId(b) && ValidDocId(c)
    ensures !DoubleSlash(a + "/" + b + "/" + c)
  {
    var path := a + "/" + b + "/" + c;
    assert forall i :: 0 <= i < |path| && path[i] == '/' ==> i == |a| || i == |a| + 1 + |b|;
  }

  /** `doc(id).get()`: the document's fields when it exists. */
  function Lookup<T>(docs: seq<Doc<T>>, id: string): (r: Option<T>)
    ensures r.None? <==> forall i :: 0 <= i < |docs| ==> docs[i].id != id
    ensures r.Some? ==> exists i :: 0 <= i < |docs| && docs[i] == Doc(id, r.value)
  {
    match IndexOf(docs, id)
    case None => None
    case Some(k) => assert docs[k] == Doc(id, docs[k].data); Some(docs[k].data)
  }

  /**
   * The order in which the store returns the documents of a query that has
   * no `orderBy`: strict lexicographic order of the document ids.
   */
  predicate IdBefore(a: string, b: string)
    decreases |a|
  {
    if |a| == 0 then |b| > 0
    else if |b| == 0 then false
    else if a[0] != b[0] then a[0] < b[0]
    else IdBefore(a[1..], b[1..])
  }

  lemma {:induction false} IdBeforeIrreflexive(a: string)
    ensures !IdBefore(a, a)
    decreases |a|
  {
    if |a| > 0 {
      IdBeforeIrreflexive(a[1..]);
    }
  }

  lemma {:induction false} IdBeforeTransitive(a: string, b: string, c: string)
    requires IdBefore(a, b) && IdBefore(b, c)
    ensures IdBefore(a, c)
    decreases |a|
  {
    if |a| > 0 && a[0] == b[0] && b[0] == c[0] {
      IdBeforeTransitive(a[1..], b[1..], c[1..]);
    }
  }

  /** Any two distinct ids are ordered one way or the other. */
  lemma {:induction false} IdBeforeTotal(a: string, b: string)
    ensures a == b || IdBefore(a, b) || IdBefore(b, a)
    decreases |a|
  {
    if |a| > 0 && |b| > 0 && a[0] == b[0] {
      IdBeforeTotal(a[1..], b[1..]);
      assert a == [a[0]] + a[1..] && b == [b[0]] + b[1..];
    }
  }

  lemma IdBeforeAsymmetric(a: string, b: string)
    ensures !(IdBefore(a, b) && IdBefore(b, a))
  {
    if IdBefore(a, b) && IdBefore(b, a) {
      IdBeforeTransitive(a, b, a);
      IdBeforeIrreflexive(a);
    }
  }

  /** The collection lists its documents in the store's id order. */
  predicate IdOrdered<T>(docs: seq<Doc<T>>) {
    forall i, j :: 0 <= i < j < |docs| ==> IdBefore(docs[i].id, docs[j].id)
  }

  /** A collection in id order carries no id twice. */
  lemma IdOrderedIdsDistinct<T>(docs: seq<Doc<T>>, i: nat, j: nat)
    requires IdOrdered(docs) && i < j < |docs|
    ensures docs[i].id != docs[j].id
  {
    IdBeforeIrreflexive(docs[i].id);
  }

  /** The position a document with `id` takes in a collection in id order. */
  function InsertPos<T>(docs: seq<Doc<T>>, id: string): (p: nat)
    ensures p <= |docs|
    ensures forall i :: 0 <= i < p ==> IdBefore(docs[i].id, id)
    ensures p < |docs| ==> !IdBefore(docs[p].id, id)
  {
    if |docs| == 0 || !IdBefore(docs[0].id, id) then 0
    else
      var p := 1 + InsertPos(docs[1..], id);
      assert forall i :: 1 <= i < p ==> docs[i] == docs[1..][i - 1];
      p
  }

  /** An unused id sorts before every document from its insertion position on. */
  lemma InsertPosSplits<T>(docs: seq<Doc<T>>, id: string, j: nat)
    requires IdOrdered(docs) && !Taken(docs, id)
    requires InsertPos(docs, id) <= j < |docs|
    ensures IdBefore(id, docs[j].id)
  {
    var p := InsertPos(docs, id);
    IdBeforeTotal(docs[p].id, id);
    if p < j {
      IdBeforeTransitive(id, docs[p].id, docs[j].id);
    }
  }

  /**
   * `collection.add(data)` storing the document under the generated `id`:
   * the new document takes its place in id order and every other document
   * keeps its relative order.
   */
  function Add<T>(docs: seq<Doc<T>>, id: string, data: T): (r: seq<Doc<T>>)
    ensures |r| == |docs| + 1 && r[InsertPos(docs, id)] == Doc(id, data)
  {
    var p := InsertPos(docs, id);
    docs[..p] + [Doc(id, data)] + docs[p..]
  }

  /** An add under an unused id keeps the collection in id order. */
  lemma AddKeepsIdOrder<T>(docs: seq<Doc<T>>, id: string, data: T)
    ensures IdOrdered(docs) && !Taken(docs, id) ==> IdOrdered(Add(docs, id, data))
  {
    var r := Add(docs, id, data);
    if IdOrdered(docs) && !Taken(docs, id) {
      forall i, j | 0 <= i < j < |r| ensures IdBefore(r[i].id, r[j].id) {
        InsertedPairOrdered(docs, id, data, i, j);
      }
    }
  }

  lemma InsertedPairOrdered<T>(docs: seq<Doc<T>>, id: string, data: T, i: nat, j: nat)
    requires IdOrdered(docs) && !Taken(docs, id)
    requires i < j <= |docs|
    ensures IdBefore(Add(docs, id, data)[i].id, Add(docs, id, data)[j].id)
  {
    var p := InsertPos(docs, id);
    AddAt(docs, id, data, i);
    AddAt(docs, id, data, j);
    if i == p {
      InsertPosSplits(docs, id, j - 1);
    }
  }

  /** `doc.update(...)` rewrites fields in place and keeps every id. */
  lemma UpdateKeepsIdOrder<T>(docs: seq<Doc<T>>, p: nat, d: Doc<T>)
    requires p < |docs| && d.id == docs[p].id
    ensures IdOrdered(docs) ==> IdOrdered(docs[p := d])
  {
    assert forall i :: 0 <= i < |docs| ==> docs[p := d][i].id == docs[i].id;
  }

  /** After an add under an unused id, `doc(id).get()` finds the new document. */
  lemma LookupAdded<T>(docs: seq<Doc<T>>, id: string, data: T)
    requires !Taken(docs, id)
    ensures Lookup(Add(docs, id, data), id) == Some(data)
  {
    var r := Add(docs, id, data);
    var p := InsertPos(docs, id);
    forall i | 0 <= i < |r| && i != p ensures r[i].id != id {
      if i < p {
        assert r[i] == docs[i];
      } else {
        assert r[i] == docs[i - 1];
      }
    }
    assert r[p].id == id;
  }

  /** The position the query `where(f, '==', v)` names as its first result. */
  lemma FirstMatchAt(users: seq<Doc<User>>, f: UserField, v: string, k: nat)
    requires k < |users| && Matches(users[k], f, v)
    requires forall j :: 0 <= j < k ==> !Matches(users[j], f, v)
    ensures FirstWhere(users, f, v) == Some(k)
  {
    var r := FirstWhere(users, f, v);
    assert r.Some?;
  }

  /**
   * Adding a document under an unused id to a collection in id order changes
   * the first match of a query only when the new document matches and its id
   * sorts before the old first match's.
   */
  lemma FirstWhereAfterAdd(users: seq<Doc<User>>, id: string, data: User, f: UserField, v: string)
    requires IdOrdered(users) && !Taken(users, id) && AnyWhere(users, f, v)
    ensures var k := FirstWhere(users, f, v).value;
      var r := FirstWhere(Add(users, id, data), f, v);
      if Matches(Doc(id, data), f, v) && IdBefore(id, users[k].id) then r == Some(InsertPos(users, id))
      else r.Some? && Add(users, id, data)[r.value] == users[k]
  {
    var k := FirstWhere(users, f, v).value;
    var r := FirstWhere(Add(users, id, data), f, v);
    if IdBefore(id, users[k].id) {
      AddBeforeFirstMatch(users, id, data, f, v, k);
    } else {
      AddAfterFirstMatch(users, id, data, f, v, k);
    }
  }

  /** A document added ahead of the first match becomes it if it matches, else shifts it by one. */
  lemma AddBeforeFirstMatch(users: seq<Doc<User>>, id: string, data: User, f: UserField, v: string, k: nat)
    requires k < |users| && Matches(users[k], f, v) && forall j :: 0 <= j < k ==> !Matches(users[j], f, v)
    requires IdBefore(id, users[k].id)
    ensures Matches(Doc(id, data), f, v) ==> FirstWhere(Add(users, id, data), f, v) == Some(InsertPos(users, id))
    ensures !Matches(Doc(id, data), f, v) ==> FirstWhere(Add(users, id, data), f, v) == Some(k + 1)
    ensures Add(users, id, data)[k + 1] == users[k]
  {
    assert InsertPos(users, id) <= k by {
      if InsertPos(users, id) > k {
        IdBeforeAsymmetric(id, users[k].id);
      }
    }
    AddAt(users, id, data, k + 1);
    if Matches(Doc(id, data), f, v) {
      AddedMatchFirst(users, id, data, f, v, k);
    } else {
      AddedMissShifts(users, id, data, f, v, k);
    }
  }

  lemma AddedMatchFirst(users: seq<Doc<User>>, id: string, data: User, f: UserField, v: string, k: nat)
    requires InsertPos(users, id) <= k <= |users| && forall j :: 0 <= j < k ==> !Matches(users[j], f, v)
    requires Matches(Doc(id, data), f, v)
    ensures FirstWhere(Add(users, id, data), f, v) == Some(InsertPos(users, id))
  {
    var p := InsertPos(users, id);
    AddedPrefixHasNoMatch(users, id, data, f, v, k, p);
    FirstMatchAt(Add(users, id, data), f, v, p);
  }

  lemma AddedMissShifts(users: seq<Doc<User>>, id: string, data: User, f: UserField, v: string, k: nat)
    requires InsertPos(users, id) <= k < |users| && forall j :: 0 <= j < k ==> !Matches(users[j], f, v)
    requires Matches(users[k], f, v) && Add(users, id, data)[k + 1] == users[k]
    requires !Matches(Doc(id, data), f, v)
    ensures FirstWhere(Add(users, id, data), f, v) == Some(k + 1)
  {
    AddedPrefixHasNoMatch(users, id, data, f, v, k, k + 1);
    FirstMatchAt(Add(users, id, data), f, v, k + 1);
  }

  /**
   * No document ahead of position `m` of the added-to collection matches,
   * given that none of the first `n` old documents does and the added one
   * does not when it lands ahead of `m`.
   */
  lemma AddedPrefixHasNoMatch(users: seq<Doc<User>>, id: string, data: User, f: UserField, v: string, n: nat, m: nat)
    requires InsertPos(users, id) <= n <= |users| && m <= n + 1
    requires forall j :: 0 <= j < n ==> !Matches(users[j], f, v)
    requires InsertPos(users, id) < m ==> !Matches(Doc(id, data), f, v)
    ensures forall j :: 0 <= j < m ==> !Matches(Add(users, id, data)[j], f, v)
  {
    forall j | 0 <= j < m ensures !Matches(Add(users, id, data)[j], f, v) {
      AddAt(users, id, data, j);
    }
  }

  /** Where each document of the collection sits after an add. */
  lemma AddAt<T>(docs: seq<Doc<T>>, id: string, data: T, j: nat)
    requires j <= |docs|
    ensures var p := InsertPos(docs, id);
      Add(docs, id, data)[j] == if j < p then docs[j] else if j == p then Doc(id, data) else docs[j - 1]
  {
    var p := InsertPos(docs, id);
    var r := Add(docs, id, data);
    if j < p {
      assert r[j] == r[..p][j];
    } else if j > p {
      assert r[j] == r[p + 1..][j - p - 1];
    }
  }

  /** A document added after the first match leaves it where it was. */
  lemma AddAfterFirstMatch(users: seq<Doc<User>>, id: string, data: User, f: UserField, v: string, k: nat)
    requires IdOrdered(users) && !Taken(users, id)
    requires k < |users| && Matches(users[k], f, v) && forall j :: 0 <= j < k ==> !Matches(users[j], f, v)
    requires !IdBefore(id, users[k].id)
    ensures FirstWhere(Add(users, id, data), f, v) == Some(k)
    ensures Add(users, id, data)[k] == users[k]
  {
    var all := Add(users, id, data);
    if InsertPos(users, id) <= k {
      InsertPosSplits(users, id, k);
    }
    AddAt(users, id, data, k);
    forall j | 0 <= j < k ensures !Matches(all[j], f, v) {
      AddAt(users, id, data, j);
    }
    FirstMatchAt(all, f, v, k);
  }

  /** Adding the first matching document makes it the first match. */
  lemma FirstWhereAddNew(users: seq<Doc<User>>, id: string, data: User, f: UserField, v: string)
    requires !AnyWhere(users, f, v)
    ensures Matches(Doc(id, data), f, v) ==> FirstWhere(Add(users, id, data), f, v) == Some(InsertPos(users, id))
    ensures !Matches(Doc(id, data), f, v) ==> FirstWhere(Add(users, id, data), f, v).None?
  {
    var p := InsertPos(users, id);
    var all := Add(users, id, data);
    forall j | 0 <= j < |all| && j != p ensures !Matches(all[j], f, v) {
      if j < p {
        assert all[j] == users[j];
      } else {
        assert all[j] == users[j - 1];
      }
    }
    if Matches(Doc(id, data), f, v) {
      FirstMatchAt(all, f, v, p);
    }
  }

  /** A stored `userID` field, where present, names the user's own document. */
  predicate SelfIdentified(users: seq<Doc<User>>) {
    forall i :: 0 <= i < |users| && users[i].data.userID.Some? ==> users[i].data.userID.value == users[i].id
  }

  /** Adding a user whose `userID`, if any, is its own id keeps users self-identified. */
  lemma AddKeepsSelfIdentified(users: seq<Doc<User>>, id: string, u: User)
    requires u.userID.None? || u.userID == Some(id)
    ensures SelfIdentified(users) ==> SelfIdentified(Add(users, id, u))
  {
    var r := Add(users, id, u);
    var p := InsertPos(users, id);
    if SelfIdentified(users) {
      forall i | 0 <= i < |r| && r[i].data.userID.Some? ensures r[i].data.userID.value == r[i].id {
        if i < p {
          assert r[i] == users[i];
        } else if i > p {
          assert r[i] == users[i - 1];
        }
      }
    }
  }

  /** Rewriting a user in place with its own id as `userID` keeps users self-identified. */
  lemma UpdateKeepsSelfIdentified(users: seq<Doc<User>>, p: nat, d: Doc<User>)
    requires p < |users| && (d.data.userID.None? || d.data.userID == Some(d.id))
    ensures SelfIdentified(users) ==> SelfIdentified(users[p := d])
  {
  }

  /** What every handler keeps true of the store. */
  predicate Valid(s: Store) {
    IdOrdered(s.users) && IdOrdered(s.stories) && SelfIdentified(s.users)
  }
}

/** Story queries: the `where` clauses the story endpoints use. */
module StoryQueries {
  import opened Options
  import opened Store

  /** `where('lat', '!=', null)`, `where('userID', '==', uid)`, or no clause. */
  datatype StoryFilter = AllStories | WithLocation | ByAuthor(userID: string)

  predicate Keeps(f: StoryFilter, d: Doc<Story>) {
    match f
    case AllStories => true
    case WithLocation => d.data.lat.Some?
    case ByAuthor(uid) => d.data.userID == Some(uid)
  }

  /** The documents the filter keeps, in `docs`' order. */
  function Where(docs: seq<Doc<Story>>, f: StoryFilter): (r: seq<Doc<Story>>)
    ensures forall i :: 0 <= i < |r| ==> Keeps(f, r[i])
    ensures |r| <= |docs|
  {
    if |docs| == 0 then []
    else
      var rest := Where(docs[1..], f);
      if Keeps(f, docs[0]) then [docs[0]] + rest else rest
  }

  /** A query keeps exactly the stored documents that satisfy its filter. */
  lemma {:induction false} WhereMembers(docs: seq<Doc<Story>>, f: StoryFilter)
    ensures forall d :: d in Where(docs, f) <==> d in docs && Keeps(f, d)
  {
    if |docs| > 0 {
      WhereMembers(docs[1..], f);
      assert docs == [docs[0]] + docs[1..];
    }
  }

  /** Filtering a sequence filters its head, then its tail. */
  lemma WhereCons(x: Doc<Story>, rest: seq<Doc<Story>>, f: StoryFilter)
    ensures Where([x] + rest, f) == (if Keeps(f, x) then [x] else []) + Where(rest, f)
  {
    var all := [x] + rest;
    assert all[0] == x && all[1..] == rest;
  }

  /** Filtering a concatenation filters each part in turn. */
  lemma {:induction false} WhereConcat(a: seq<Doc<Story>>, b: seq<Doc<Story>>, f: StoryFilter)
    ensures Where(a + b, f) == Where(a, f) + Where(b, f)
  {
    if |a| == 0 {
      assert a + b == b;
    } else {
      WhereConcat(a[1..], b, f);
      WhereConcatStep(a, b, f);
    }
  }

  /** One step of `WhereConcat`: from the tail of `a` to `a` itself. */
  lemma WhereConcatStep(a: seq<Doc<Story>>, b: seq<Doc<Story>>, f: StoryFilter)
    requires |a| > 0 && Where(a[1..] + b, f) == Where(a[1..], f) + Where(b, f)
    ensures Where(a + b, f) == Where(a, f) + Where(b, f)
  {
    var head := if Keeps(f, a[0]) then [a[0]] else [];
    var tail := a[1..];
    ConsSplit(a, b);
    WhereCons(a[0], tail + b, f);
    WhereCons(a[0], tail, f);
    AppendAssoc(head, Where(tail, f), Where(b, f));
  }

  lemma ConsSplit<T>(a: seq<T>, b: seq<T>)
    requires |a| > 0
    ensures a == [a[0]] + a[1..] && a + b == [a[0]] + (a[1..] + b)
  {
  }

  lemma AppendAssoc<T>(x: seq<T>, y: seq<T>, z: seq<T>)
    ensures x + (y + z) == (x + y) + z
  {
  }

  /** Every kept document occurs in the result exactly as often as in `docs`. */
  lemma {:induction false} WhereCounts(docs: seq<Doc<Story>>, f: StoryFilter)
    ensures forall d :: multiset(Where(docs, f))[d] == if Keeps(f, d) then multiset(docs)[d] else 0
  {
    if |docs| > 0 {
      WhereCounts(docs[1..], f);
      assert docs == [docs[0]] + docs[1..];
      var rest := Where(docs[1..], f);
      if Keeps(f, docs[0]) {
        assert Where(docs, f) == [docs[0]] + rest;
      } else {
        assert Where(docs, f) == rest;
      }
    }
  }

  /** A query over a collection in id order answers in id order. */
  lemma {:induction false} WhereKeepsIdOrder(docs: seq<Doc<Story>>, f: StoryFilter)
    requires IdOrdered(docs)
    ensures IdOrdered(Where(docs, f))
  {
    if |docs| > 0 {
      var tail := docs[1..];
      assert IdOrdered(tail) by {
        forall i, j | 0 <= i < j < |tail| ensures IdBefore(tail[i].id, tail[j].id) {
          assert tail[i] == docs[i + 1] && tail[j] == docs[j + 1];
        }
      }
      WhereKeepsIdOrder(tail, f);
      var rest := Where(tail, f);
      if Keeps(f, docs[0]) {
        var r := [docs[0]] + rest;
        assert Where(docs, f) == r;
        WhereMembers(tail, f);
        forall i, j | 0 <= i < j < |r| ensures IdBefore(r[i].id, r[j].id) {
          assert r[j] == rest[j - 1];
          if i == 0 {
            assert rest[j - 1] in tail;
            var k :| 0 <= k < |tail| && tail[k] == rest[j - 1];
            assert docs[k + 1] == r[j];
          } else {
            assert r[i] == rest[i - 1];
          }
        }
      }
    }
  }
}

=== FILE: stories.dfy ===
/**
 * The story endpoints other than the feed: `POST /stories` (validation and
 * record construction), `GET /stories/:storyID` and
 * `GET /stories/user/:userID`.
 */
module Stories {
  import opened Options
  import opened Text
  import opened Session
  import opened Store
  import opened StoryQueries
  import opened Api

  /** The multipart form of `POST /stories`; `photo` is the uploaded file, if any. */
  datatype StoryForm = StoryForm(
    title: Option<string>,
    description: Option<string>,
    photo: Option<Photo>,
    lat: Option<string>,
    lon: Option<string>)

  /** `x ? parseFloat(x) : null` */
  function Coordinate(field: Option<string>): (r: Option<Num>)
    ensures r.Some? <==> Truthy(field)
    ensures r.Some? ==> r.value == ParsedFloat(field.value)
  {
    if Truthy(field) then Some(ParsedFloat(field.value)) else None
  }

  predicate CompleteForm(form: StoryForm) {
    Truthy(form.title) && Truthy(form.description) && form.photo.Some?
  }

  /**
   * `POST /stories` behind `authenticateToken`: check the form, upload the
   * photo, read the author's current username, add the story. Only a 201
   * writes a story; a failure after the upload leaves the photo stored.
   */
  function CreateStory(env: Env, s: Store, authorization: Option<string>, form: StoryForm): (out: Reply)
    ensures var a := Authenticate(authorization, env.parseToken, env.secret, env.now);
      !a.Authenticated? ==> out == Reply(Response(AuthStatus(a), StatusOnly), s)
    ensures Authenticate(authorization, env.parseToken, env.secret, env.now).Authenticated? && !CompleteForm(form) ==>
      out == Reply(BadRequest(StoryFieldsRequired), s)
    ensures out.store.users == s.users
    ensures out.store.objects == s.objects || (form.photo.Some? && out.store.objects == s.objects + [form.photo.value])
    ensures out.response.status != 201 ==> out.store.stories == s.stories
    ensures out.response.status in {201, 400, 401, 403, 500}
    ensures Authenticate(authorization, env.parseToken, env.secret, env.now).Authenticated? && CompleteForm(form) ==>
      && out.response.status in {201, 500}
      && (out.response.status == 500 ==> out.response == Internal)
    ensures out.response.status == 201 <==>
      && var a := Authenticate(authorization, env.parseToken, env.secret, env.now);
      && a.Authenticated? && CompleteForm(form)
      && env.upload(form.photo.value).Some?
      && var author := ResolveField(a.user.userID);
      && author.Member?
      && Lookup(s.users, author.id).Some?
      && Lookup(s.users, author.id).value.username.Some?
      && !Taken(s.stories, env.newId)
    ensures out.response.status == 201 ==>
      && var a := Authenticate(authorization, env.parseToken, env.secret, env.now);
      && a.Authenticated? && CompleteForm(form)
      && env.upload(form.photo.value).Some?
      && out.store.objects == s.objects + [form.photo.value]
      && out.response.body == Created(env.newId)
      && !Taken(s.stories, env.newId)
      && var p := InsertPos(s.stories, env.newId);
      && |out.store.stories| == |s.stories| + 1
      && out.store.stories[..p] == s.stories[..p] && out.store.stories[p + 1..] == s.stories[p..]
      && var d := out.store.stories[p];
         && d.id == env.newId
         && d.data.title == form.title.value && d.data.description == form.description.value
         && d.data.photoUrl == env.upload(form.photo.value).value
         && (d.data.lat.Some? <==> Truthy(form.lat)) && (d.data.lon.Some? <==> Truthy(form.lon))
         && (Truthy(form.lat) ==> d.data.lat.value == ParsedFloat(form.lat.value))
         && (Truthy(form.lon) ==> d.data.lon.value == ParsedFloat(form.lon.value))
         && d.data.created == Some(env.clockMs)
         && d.data.userID == a.user.userID
         && var author := ResolveField(a.user.userID);
         && d.data.username.Some? && author.Member?
         && d.data.username == Lookup(s.users, author.id).value.username
         && exists i :: 0 <= i < |s.users| && s.users[i].id == author.id && s.users[i].data.username == d.data.username
    ensures Valid(s) ==> Valid(out.store)
  {
    var a := Authenticate(authorization, env.parseToken, env.secret, env.now);
    if !a.Authenticated? then Reply(Response(AuthStatus(a), StatusOnly), s)
    else if !CompleteForm(form) then Reply(BadRequest(StoryFieldsRequired), s)
    else
      match env.upload(form.photo.value)
      case None => Reply(Internal, s)
      case Some(url) =>
        var uploaded := s.(objects := s.objects + [form.photo.value]);
        var uid := a.user.userID;
        // `doc(undefined)` and refused paths throw; so does `.username` of a missing
        // document (no handler writes sub-collections), and the document store
        // refuses an `undefined` username.
        match ResolveField(uid)
        case Refused => Reply(Internal, uploaded)
        case Nested => Reply(Internal, uploaded)
        case Member(key) =>
          match Lookup(s.users, key)
          case None => Reply(Internal, uploaded)
          case Some(author) =>
            // `add` creates the story only under an unused generated id.
            if author.username.None? || Taken(s.stories, env.newId) then Reply(Internal, uploaded)
            else
              var story := Story(form.title.value, form.description.value, url,
                Coordinate(form.lat), Coordinate(form.lon), Some(env.clockMs), uid, author.username);
              AddKeepsIdOrder(s.stories, env.newId, story);
              Reply(Response(201, Created(env.newId)), uploaded.(stories := Add(s.stories, env.newId, story)))
  }

  /**
   * `GET /stories/:storyID`: the stored fields of the story the path names,
   * or 404; a path `doc` refuses makes it throw, which answers 500.
   */
  function GetStory(s: Store, storyID: string): (r: Response)
    ensures r.status in {200, 404, 500}
    ensures r.status == 500 <==> Resolve(storyID).Refused?
    ensures r.status == 500 ==> r == Internal
    ensures r.status == 404 <==>
      || Resolve(storyID).Nested?
      || (Resolve(storyID).Member? && forall i :: 0 <= i < |s.stories| ==> s.stories[i].id != Resolve(storyID).id)
    ensures r.status == 404 ==> r == Response(404, Failure(StoryNotFound))
    ensures r.status == 200 ==>
      && Resolve(storyID).Member? && r.body.Detail?
      && exists i :: 0 <= i < |s.stories| && s.stories[i] == Doc(Resolve(storyID).id, r.body.story)
  {
    match Resolve(storyID)
    case Refused => Internal
    // No handler writes a sub-collection, so a nested document never exists.
    case Nested => Response(404, Failure(StoryNotFound))
    case Member(id) =>
      match Lookup(s.stories, id)
      case None => Response(404, Failure(StoryNotFound))
      case Some(story) => Response(200, Detail(story))
  }

  /** A trailing `/` on the story id names the same story. */
  lemma GetStoryTrailingSlash(s: Store, storyID: string)
    requires ValidDocId(storyID)
    ensures GetStory(s, storyID + "/") == GetStory(s, storyID)
  {
    ResolveId(storyID);
    ResolveTrailingSlash(storyID);
  }

  /** A path into a sub-collection finds no story. */
  lemma GetStoryNested(s: Store, a: string, b: string, c: string)
    requires ValidDocId(a) && ValidDocId(b) && ValidDocId(c)
    ensures GetStory(s, a + "/" + b + "/" + c) == Response(404, Failure(StoryNotFound))
  {
    ResolveThreeSegments(a, b, c);
  }

  /** One entry of `userStories`; the username is taken as stored. */
  function UserEntry(d: Doc<Story>): UserStoryView
    requires d.data.created.Some?
  {
    UserStoryView(d.id, d.data.title, d.data.username, d.data.description, d.data.photoUrl, d.data.created.value)
  }

  /**
   * The entries for `docs`, or `None` when one of them has no creation date
   * (`toDate()` of a missing date throws).
   */
  function UserEntries(docs: seq<Doc<Story>>): (r: Option<seq<UserStoryView>>)
    ensures r.Some? <==> forall i :: 0 <= i < |docs| ==> docs[i].data.created.Some?
    ensures r.Some? ==>
      && |r.value| == |docs|
      && forall i :: 0 <= i < |docs| ==>
           && r.value[i].storyID == docs[i].id
           && r.value[i].username == docs[i].data.username
           && Some(r.value[i].created) == docs[i].data.created
           && r.value[i] == UserEntry(docs[i])
  {
    if |docs| == 0 then Some([])
    else if docs[0].data.created.None? then None
    else
      match UserEntries(docs[1..])
      case None => None
      case Some(rest) => Some([UserEntry(docs[0])] + rest)
  }

  /** Every story of the author is in the query result. */
  lemma AuthorStoriesSelected(stories: seq<Doc<Story>>, userID: string, j: int)
    requires 0 <= j < |stories| && stories[j].data.userID == Some(userID)
    ensures stories[j] in Where(stories, ByAuthor(userID))
  {
    WhereMembers(stories, ByAuthor(userID));
    assert Keeps(ByAuthor(userID), stories[j]);
  }

  /** The author's stories all carry a date exactly when the query result does. */
  lemma AuthorStoriesDated(stories: seq<Doc<Story>>, userID: string)
    ensures var mine := Where(stories, ByAuthor(userID));
      (forall i :: 0 <= i < |mine| ==> mine[i].data.created.Some?) <==>
      (forall j :: 0 <= j < |stories| && stories[j].data.userID == Some(userID) ==> stories[j].data.created.Some?)
  {
    var mine := Where(stories, ByAuthor(userID));
    if forall i :: 0 <= i < |mine| ==> mine[i].data.created.Some? {
      forall j | 0 <= j < |stories| && stories[j].data.userID == Some(userID)
        ensures stories[j].data.created.Some?
      {
        AuthorStoriesSelected(stories, userID, j);
        var i :| 0 <= i < |mine| && mine[i] == stories[j];
      }
    } else {
      var i :| 0 <= i < |mine| && mine[i].data.created.None?;
      WhereMembers(stories, ByAuthor(userID));
      assert mine[i] in stories;
      var j :| 0 <= j < |stories| && stories[j] == mine[i];
      assert Keeps(ByAuthor(userID), mine[i]);
      assert stories[j].data.userID == Some(userID) && stories[j].data.created.None?;
    }
  }

  /**
   * `GET /stories/user/:userID`: every story whose `userID` field is the
   * given id, in query order, each username as stored; no repair pass.
   */
  function GetUserStories(s: Store, userID: string): (r: Response)
    ensures r.status in {200, 500}
    ensures r.status == 500 ==> r == Internal
    ensures r.status == 200 <==>
      forall i :: 0 <= i < |s.stories| && s.stories[i].data.userID == Some(userID) ==> s.stories[i].data.created.Some?
    ensures r.status == 200 ==>
      && r.body.UserStories?
      && var mine := Where(s.stories, ByAuthor(userID));
         && |r.body.userStories| == |mine|
         && (forall i :: 0 <= i < |mine| ==>
              r.body.userStories[i].storyID == mine[i].id && r.body.userStories[i].username == mine[i].data.username)
         && Some(r.body.userStories) == UserEntries(mine)
  {
    var mine := Where(s.stories, ByAuthor(userID));
    AuthorStoriesDated(s.stories, userID);
    match UserEntries(mine)
    case None => Internal
    case Some(entries) => Response(200, UserStories(entries))
  }

  /**
   * Adding a dated story of the author to a collection
   * whose author listing succeeds inserts the story's entry into that
   * listing at its place in id order; every other entry keeps its relative
   * order.
   */
  lemma {:induction false} UserListingOfAddedStory(s: Store, t: Store, d: Doc<Story>, userID: string)
    requires GetUserStories(s, userID).status == 200
    requires t.stories == Add(s.stories, d.id, d.data)
    requires d.data.userID == Some(userID) && d.data.created.Some?
    ensures var before := GetUserStories(s, userID).body.userStories;
      var after := GetUserStories(t, userID);
      var q := |Where(s.stories[..InsertPos(s.stories, d.id)], ByAuthor(userID))|;
      && after.status == 200
      && q <= |before|
      && after.body.userStories == before[..q] + [UserEntry(d)] + before[q..]
  {
    var f := ByAuthor(userID);
    var wl := Where(s.stories[..InsertPos(s.stories, d.id)], f);
    var wr := Where(s.stories[InsertPos(s.stories, d.id)..], f);
    WhereOfAdd(s.stories, d, f);
    AuthorStoriesDated(s.stories, userID);
    EntriesOfInsertion(wl, d, wr);
  }

  /** A query over the collection after an add sees the new document at its place. */
  lemma WhereOfAdd(stories: seq<Doc<Story>>, d: Doc<Story>, f: StoryFilter)
    requires Keeps(f, d)
    ensures var p := InsertPos(stories, d.id);
      var wl, wr := Where(stories[..p], f), Where(stories[p..], f);
      && Where(stories, f) == wl + wr
      && Where(Add(stories, d.id, d.data), f) == wl + [d] + wr
  {
    var p := InsertPos(stories, d.id);
    var left, right := stories[..p], stories[p..];
    assert stories == left + right;
    assert Add(stories, d.id, d.data) == left + [d] + right;
    WhereConcat(left, right, f);
    WhereConcat(left + [d], right, f);
    WhereConcat(left, [d], f);
    assert [d][1..] == [];
    assert Where([d], f) == [d];
  }

  /** The entries of a concatenation are the entries of its parts. */
  lemma UserEntriesConcat(a: seq<Doc<Story>>, b: seq<Doc<Story>>)
    requires UserEntries(a).Some? && UserEntries(b).Some?
    ensures UserEntries(a + b) == Some(UserEntries(a).value + UserEntries(b).value)
  {
    var ea, eb := UserEntries(a).value, UserEntries(b).value;
    var all := a + b;
    assert UserEntries(all).Some? by {
      forall i | 0 <= i < |all| ensures all[i].data.created.Some? {
        ConcatAt(a, b, i);
      }
    }
    var e := UserEntries(all).value;
    forall i | 0 <= i < |e| ensures e[i] == (ea + eb)[i] {
      ConcatAt(a, b, i);
    }
    assert e == ea + eb;
  }

  lemma ConcatAt<T>(a: seq<T>, b: seq<T>, i: nat)
    requires i < |a| + |b|
    ensures (a + b)[i] == if i < |a| then a[i] else b[i - |a|]
  {
  }

  /** Inserting a dated story into a dated run inserts its entry at the same place. */
  lemma EntriesOfInsertion(wl: seq<Doc<Story>>, d: Doc<Story>, wr: seq<Doc<Story>>)
    requires UserEntries(wl + wr).Some? && d.data.created.Some?
    ensures var entries := UserEntries(wl + wr).value;
      && |wl| <= |entries|
      && UserEntries(wl + [d] + wr) == Some(entries[..|wl|] + [UserEntry(d)] + entries[|wl|..])
  {
    assert UserEntries(wl).Some? && UserEntries(wr).Some? by {
      forall i | 0 <= i < |wl| ensures wl[i].data.created.Some? {
        assert wl[i] == (wl + wr)[i];
      }
      forall i | 0 <= i < |wr| ensures wr[i].data.created.Some? {
        assert wr[i] == (wl + wr)[|wl| + i];
      }
    }
    var el, er := UserEntries(wl).value, UserEntries(wr).value;
    UserEntriesConcat(wl, wr);
    assert UserEntries([d]) == Some([UserEntry(d)]) by {
      assert forall i :: 0 <= i < |[d]| ==> [d][i].data.created.Some?;
      var one := UserEntries([d]).value;
      assert |one| == 1 && one[0] == UserEntry([d][0]);
      assert one == [UserEntry(d)];
    }
    UserEntriesConcat(wl, [d]);
    UserEntriesConcat(wl + [d], wr);
    var entries := el + er;
    assert entries[..|wl|] == el && entries[|wl|..] == er;
  }
}

=== FILE: text.dfy ===
/**
 * Strings as the service handles them: JavaScript truthiness of an optional
 * field, and `String.prototype.split` with a one-character separator, of
 * which the service only ever reads field 0 (the local part of an e-mail
 * address) and field 1 (the token of an `Authorization` header).
 */
module Text {
  import opened Options

  /** JavaScript truthiness of an optional string: present and non-empty. */
  predicate Truthy(f: Option<string>) {
    f.Some? && f.value != ""
  }

  /** `fields.join(sep)`: the inverse of `Split`. */
  function Join(fields: seq<string>, sep: char): string
    requires |fields| >= 1
  {
    if |fields| == 1 then fields[0] else fields[0] + [sep] + Join(fields[1..], sep)
  }

  /** `s.split(sep)` for a one-character separator: never empty, fields free of `sep`. */
  function Split(s: string, sep: char): (fields: seq<string>)
    ensures |fields| >= 1
    ensures forall i :: 0 <= i < |fields| ==> sep !in fields[i]
    ensures Join(fields, sep) == s
  {
    if s == [] then [[]]
    else
      var rest := Split(s[1..], sep);
      if s[0] == sep then
        assert ([[]] + rest)[1..] == rest;
        [[]] + rest
      else
        var fields := [[s[0]] + rest[0]] + rest[1..];
        assert fields[1..] == rest[1..];
        assert s == [s[0]] + s[1..];
        fields
  }

  /** Splitting a string with no separator in it yields the string alone. */
  lemma {:induction false} SplitWithoutSeparator(x: string, sep: char)
    requires sep !in x
    ensures Split(x, sep) == [x]
  {
    if x != [] {
      SplitWithoutSeparator(x[1..], sep);
      assert x == [x[0]] + x[1..];
    }
  }

  /** Splitting at a leading separator-free field peels that field off. */
  lemma {:induction false} SplitAtFirstSeparator(x: string, y: string, sep: char)
    requires sep !in x
    ensures Split(x + [sep] + y, sep) == [x] + Split(y, sep)
  {
    if x == [] {
      assert (x + [sep] + y)[1..] == y;
    } else {
      SplitAtFirstSeparator(x[1..], y, sep);
      assert (x + [sep] + y)[1..] == x[1..] + [sep] + y;
      assert x == [x[0]] + x[1..];
    }
  }

  /** Round trip: separator-free fields survive `join` followed by `split`. */
  lemma {:induction false} SplitJoin(fields: seq<string>, sep: char)
    requires |fields| >= 1
    requires forall i :: 0 <= i < |fields| ==> sep !in fields[i]
    ensures Split(Join(fields, sep), sep) == fields
  {
    if |fields| == 1 {
      SplitWithoutSeparator(fields[0], sep);
    } else {
      SplitJoin(fields[1..], sep);
      SplitAtFirstSeparator(fields[0], Join(fields[1..], sep), sep);
      assert fields == [fields[0]] + fields[1..];
    }
  }

  /**
   * `s.split(sep)[0]`: the part of `s` before the first `sep`, or all of `s`
   * when it holds no `sep`.
   */
  function FirstField(s: string, sep: char): (r: string)
    ensures r <= s && sep !in r
    ensures sep in s ==> |r| < |s| && s[|r|] == sep
    ensures sep !in s ==> r == s
  {
    var fields := Split(s, sep);
    assert |fields| > 1 ==> s == fields[0] + [sep] + Join(fields[1..], sep);
    fields[0]
  }

  /**
   * `s.split(sep)[1]`: absent exactly when `s` holds no `sep`; otherwise the
   * first field of what follows the first `sep`.
   */
  function SecondField(s: string, sep: char): (r: Option<string>)
    ensures r.None? <==> sep !in s
    ensures sep in s ==>
      var head := FirstField(s, sep);
      r == Some(FirstField(s[|head| + 1..], sep))
  {
    var fields := Split(s, sep);
    if |fields| >= 2 then
      assert s == fields[0] + [sep] + Join(fields[1..], sep);
      assert s[|fields[0]| + 1..] == Join(fields[1..], sep);
      SplitJoin(fields[1..], sep);
      Some(fields[1])
    else
      None
  }
}
